=== FILE: README.md ===
# Procedural terrain generator — a Dafny model of its core

This project models the core logic of a Unity procedural terrain generator.
It has four parts:

- **Grid tessellation.** `MeshGenerator.GenerateTerrainMeshData` and the
  `MeshData` buffers it fills turn a width x height grid of heights into a
  vertex buffer, a UV buffer and a triangle-index buffer. Vertex (x, y) goes
  to slot `y * width + x`, and every grid cell with a right and a lower
  neighbour gets two triangles.
- **Chunk streaming.** This covers the `EndlessTerrain` controller and its
  `TerrainChunk` and `LODMesh` classes:
  - the level-of-detail (LOD) table lookup;
  - a per-chunk state machine with map data, per-level mesh requests and
    meshes, the shown level, the collider and visibility;
  - the recompute of the visible chunks over the (2k+1) x (2k+1) window
    around the viewer;
  - the movement threshold that gates that recompute;
  - the asynchronous map-data and mesh replies, as events.
- **Colour map.** The loop of `MapGenerator.GenerateMap` gives every cell of
  the noise map the colour of the first region whose height threshold
  covers it.
- **Inspector validators.** `MapGenerator.OnValidate` and
  `NoiseData.OnValidate` clamp out-of-range noise parameters.

Where the C# would throw, the model returns `None`:

- a negative array size in the `MeshData` constructor;
- a write past the end of the triangle buffer;
- the last threshold of an empty LOD table (`LevelOfDetail.MaxViewDistance`).

Floats are modelled as reals. Every request the controller sends to the map
generator is recorded in a log inside the model state. So the central
promise — no mesh is ever requested twice for the same (chunk, level), and no
map data twice for the same chunk — is a state invariant. The model proves
that this invariant (`EndlessTerrain.Valid`) survives every operation: the
initial recompute, every movement update, and every reply.

The triangle buffer is checked against an independent reference,
`MeshGeneration.GridTriangles`. It builds the buffer from `RowTriangles` and
`CellTriangles`: the two triangles (v, v+w+1, v+w) and (v+w+1, v, v+1) of
the cell whose upper-left point is slot v. The lemmas in the table relate
the loop's buffer to that reference.

Modules, one per file:

| file | module | models |
|---|---|---|
| wrappers.dfy | `Wrappers` | `Option` |
| vectors.dfy | `Vectors` | Unity's `Vector2` and `Vector3`, and their zero values |
| grid.dfy | `GridIndex` | row-major slot arithmetic shared by the mesh and colour buffers |
| validation.dfy | `Validation` | both `OnValidate` methods |
| mesh.dfy | `MeshGeneration` | `MeshData`, `AddTriangle`, `GenerateTerrainMeshData` |
| regions.dfy | `RegionMap` | the colour-map loop of `GenerateMap` |
| lod.dfy | `LevelOfDetail` | `LODData`, `GetLevelOfDetailIndex`, the collider entry, the maximum view distance |
| chunk.dfy | `TerrainChunks` | `TerrainChunk` and `LODMesh` as a state machine |
| endless.dfy | `EndlessTerrain` | the controller: `Start`, `Update`, `UpdateVisibleChunks`, the replies |

## Model

| member | source | states |
|---|---|---|
| `GridIndex.SlotInRange` | ProceduralTerrainGenerator/Assets/Scripts/MapGenerator.cs:37-48 | The slot `y * width + x` of an in-range grid point lies inside a buffer of width * height entries. |
| `GridIndex.SlotInjective` | ProceduralTerrainGenerator/Assets/Scripts/MeshGenerator.cs:18-33 | Two grid points of the same width never share a slot. |
| `GridIndex.SlotOrder` | ProceduralTerrainGenerator/Assets/Scripts/MeshGenerator.cs:18-33 | Row-major order: a point in an earlier row, or earlier in the same row, has a smaller slot, so the vertex cursor only moves forward. |
| `GridIndex.SlotBijection` | ProceduralTerrainGenerator/Assets/Scripts/MeshGenerator.cs:18-33 | Every slot k of a width x height buffer belongs to exactly one grid point, namely (k % width, k / width). |
| `Validation.Clamp` | ProceduralTerrainGenerator/Assets/Scripts/MapGenerator.cs:79 | The clamped persistence lies in [lo, hi]. It is unchanged when already inside, and it is the bound it crossed otherwise. |
| `Validation.RaiseTo` | ProceduralTerrainGenerator/Assets/Scripts/MapGenerator.cs:76-77 | A float field below its floor becomes the floor; otherwise it is unchanged. |
| `Validation.RaiseIntTo` | ProceduralTerrainGenerator/Assets/Scripts/MapGenerator.cs:71-74 | An int field below its floor becomes the floor; otherwise it is unchanged. |
| `Validation.ValidateMapSettings` | ProceduralTerrainGenerator/Assets/Scripts/MapGenerator.cs:69-83 | Afterwards mapWidth, mapHeight, lacunarity and octaves are at least 1, and persistence is in [0, 1]. Each field changes only when it was out of range. Seed, scale, offset, draw mode and auto-update are untouched. |
| `Validation.ValidMapSettingsUnchanged` | ProceduralTerrainGenerator/Assets/Scripts/MapGenerator.cs:69-83 | Settings that are already in range are left exactly as they are. |
| `Validation.ValidateMapSettingsChangesIffInvalid` | ProceduralTerrainGenerator/Assets/Scripts/MapGenerator.cs:69-83 | The validator changes the settings if and only if they are out of range. |
| `Validation.ValidateMapSettingsIdempotent` | ProceduralTerrainGenerator/Assets/Scripts/MapGenerator.cs:69-83 | Validating twice gives the same settings as validating once. |
| `Validation.ValidateNoiseSettings` | ProceduralTerrainGenerator/Assets/Scripts/Data/NoiseData.cs:25-36 | Afterwards lacunarity and octaves are at least 1, and persistence is in [0, 1]. Each changes only when out of range. Seed, scale, offset and normalise mode are untouched. |
| `Validation.ValidateNoiseSettingsChangesIffInvalid` | ProceduralTerrainGenerator/Assets/Scripts/Data/NoiseData.cs:25-36 | The noise validator changes the settings if and only if they are out of range. |
| `Validation.ValidateNoiseSettingsIdempotent` | ProceduralTerrainGenerator/Assets/Scripts/Data/NoiseData.cs:25-36 | Validating the noise settings twice gives the same result as validating once. |
| `Validation.NonPositiveScaleSurvives` | ProceduralTerrainGenerator/Assets/Scripts/Data/NoiseData.cs:25-36 | A scale of zero or below is not repaired by this validator. |
| `MeshGeneration.NewMeshData` | ProceduralTerrainGenerator/Assets/Scripts/MeshGenerator.cs:49-54 | The constructor succeeds exactly when both array sizes are non-negative. On success there are width * height zeroed vertices and UVs, (width-1) * (height-1) * 6 zeroed triangle entries, and the cursor is at 0. |
| `MeshGeneration.AddTriangle` | ProceduralTerrainGenerator/Assets/Scripts/MeshGenerator.cs:56-63 | It succeeds exactly when three slots remain. It writes a, b, c at the cursor and advances the cursor by 3. Every other triangle slot, and the vertex and UV buffers, are unchanged. |
| `MeshGeneration.RowTrianglesLength` | ProceduralTerrainGenerator/Assets/Scripts/MeshGenerator.cs:24-28 | n cells of a row emit 6n triangle indices. |
| `MeshGeneration.GridTrianglesLength` | ProceduralTerrainGenerator/Assets/Scripts/MeshGenerator.cs:20-28 | The cells of `rows` full rows emit 6 * rows * (width - 1) indices, which is the triangle buffer's size when rows = height - 1. |
| `MeshGeneration.RowTrianglesCell` | ProceduralTerrainGenerator/Assets/Scripts/MeshGenerator.cs:22-28 | Cell x of a row owns entries 6x to 6x+6 of that row's triangle list. |
| `MeshGeneration.GridTrianglesPrefix` | ProceduralTerrainGenerator/Assets/Scripts/MeshGenerator.cs:20-28 | Triangles are only ever appended: the list after r1 rows is a prefix of the list after r2 >= r1 rows. |
| `MeshGeneration.LastRowCell` | ProceduralTerrainGenerator/Assets/Scripts/MeshGenerator.cs:22-28 | Cell x of row y sits just after all cells of the rows above it and the x cells before it in its row. |
| `MeshGeneration.GridTrianglesSlice` | ProceduralTerrainGenerator/Assets/Scripts/MeshGenerator.cs:20-28 | Entries written during the first r1 rows are never overwritten later. |
| `MeshGeneration.GridTrianglesCell` | ProceduralTerrainGenerator/Assets/Scripts/MeshGenerator.cs:24-28 | Exactly two triangles per cell, at a fixed place: cell (x, y) owns entries 6 * (y * (width-1) + x) onwards, and they are its two triangles. |
| `MeshGeneration.CellTrianglesInRange` | ProceduralTerrainGenerator/Assets/Scripts/MeshGenerator.cs:26-27 | Every index of a cell's two triangles names a vertex in [0, width * height). |
| `MeshGeneration.RowTrianglesInRange` | ProceduralTerrainGenerator/Assets/Scripts/MeshGenerator.cs:22-28 | Every index emitted along a row names a vertex in [0, width * height). |
| `MeshGeneration.GridTrianglesInRange` | ProceduralTerrainGenerator/Assets/Scripts/MeshGenerator.cs:20-28 | Every index emitted over the whole grid names a vertex in [0, width * height). |
| `MeshGeneration.CellTrianglesCorners` | ProceduralTerrainGenerator/Assets/Scripts/MeshGenerator.cs:26-27 | A cell's two triangles together use exactly its four corners, and both contain the diagonal from v to v + width + 1. |
| `MeshGeneration.GridVertex` | ProceduralTerrainGenerator/Assets/Scripts/MeshGenerator.cs:30 | A vertex's vertical component is the height sample, copied unchanged. |
| `MeshGeneration.GridUV` | ProceduralTerrainGenerator/Assets/Scripts/MeshGenerator.cs:31 | A grid point's texture coordinates (x / width, y / height) lie in [0, 1) on both axes. |
| `MeshGeneration.EmittedStep` | ProceduralTerrainGenerator/Assets/Scripts/MeshGenerator.cs:24-28 | Visiting point (x, y) appends its cell's triangles exactly when x < width-1 and y < height-1; otherwise it appends nothing. |
| `MeshGeneration.EmittedRow` | ProceduralTerrainGenerator/Assets/Scripts/MeshGenerator.cs:20-35 | The triangles emitted by the start and by the end of row y are those of the full rows above it, or including it. |
| `MeshGeneration.CellFitsBuffer` | ProceduralTerrainGenerator/Assets/Scripts/MeshGenerator.cs:24-28 | The cursor never runs past the triangle buffer: there is room for the six entries of every cell. |
| `MeshGeneration.WriteVertex` | ProceduralTerrainGenerator/Assets/Scripts/MeshGenerator.cs:30-31 | Writing point (x, y) at its slot keeps every earlier point's vertex and UV, because earlier points have smaller slots. Every slot after it still holds the zero value. |
| `MeshGeneration.IndicesBelowConcat` | ProceduralTerrainGenerator/Assets/Scripts/MeshGenerator.cs:26-27 | Appending in-range indices to in-range indices keeps every index in range. |
| `MeshGeneration.AddCellTriangles` | ProceduralTerrainGenerator/Assets/Scripts/MeshGenerator.cs:26-27 | With six slots left, both `AddTriangle` calls succeed. The written prefix grows by exactly the cell's two triangles. |
| `MeshGeneration.EmitCell` | ProceduralTerrainGenerator/Assets/Scripts/MeshGenerator.cs:24-28 | The guarded pair of `AddTriangle` calls moves the written prefix from "emitted before (x, y)" to "emitted before (x+1, y)". |
| `MeshGeneration.PlaceVertex` | ProceduralTerrainGenerator/Assets/Scripts/MeshGenerator.cs:30-31 | Storing the vertex and the UV of (x, y) extends the correctly written region by that point. The slots after it still hold the constructor's zero value, and the triangles are untouched. |
| `MeshGeneration.VisitPoint` | ProceduralTerrainGenerator/Assets/Scripts/MeshGenerator.cs:24-33 | One pass of the inner loop body keeps the buffers consistent with a row-major visit up to the next point. |
| `MeshGeneration.TessellateRow` | ProceduralTerrainGenerator/Assets/Scripts/MeshGenerator.cs:22-34 | The inner loop completes row y. The source's `vertexIndex` cursor is the slot of the point being visited. Every slot before it holds its point's vertex and UV, and every slot from it on still holds zero, so slots are filled strictly in order. |
| `MeshGeneration.TessellateGrid` | ProceduralTerrainGenerator/Assets/Scripts/MeshGenerator.cs:20-35 | After the outer loop, the triangle prefix is the full reference tessellation and every vertex and UV slot holds its point's value. |
| `MeshGeneration.NegativeBufferSize` | ProceduralTerrainGenerator/Assets/Scripts/MeshGenerator.cs:52 | The triangle array size is negative exactly when one side is empty and the other has at least two points. |
| `MeshGeneration.TessellationComplete` | ProceduralTerrainGenerator/Assets/Scripts/MeshGenerator.cs:20-35 | After a full grid the cursor equals the triangle buffer's length, and every index in the buffer names a vertex. |
| `MeshGeneration.GenerateTerrainMeshData` | ProceduralTerrainGenerator/Assets/Scripts/MeshGenerator.cs:8-38 | The call fails exactly when the constructor's size is negative. Otherwise: the buffer sizes are as in the constructor; vertex and UV (x, y) sit at slot y * width + x and the vertex's height is the sample; the triangles are two per cell in row-major order, all indices in range; and the triangle buffer is full whenever the grid is non-empty. A 0 x 0 map leaves the six-entry buffer all zero. |
| `RegionMap.FirstRegionFrom` | ProceduralTerrainGenerator/Assets/Scripts/MapGenerator.cs:44-51 | Scanning from index i, the loop stops at the first region whose height is at least the cell's, or finds none when every remaining threshold is below it. |
| `RegionMap.RegionIndex` | ProceduralTerrainGenerator/Assets/Scripts/MapGenerator.cs:44-51 | The selected region is the lowest index whose threshold is at least the height. There is none if and only if every threshold is below the height. |
| `RegionMap.CellColor` | ProceduralTerrainGenerator/Assets/Scripts/MapGenerator.cs:37-51 | A cell gets the colour of the first region covering its height. When no region covers it, it keeps `default(Color)`. |
| `RegionMap.RegionIndexMonotone` | ProceduralTerrainGenerator/Assets/Scripts/MapGenerator.cs:44-51 | A higher cell never gets a lower region, whatever the table's order, with "no region" ranked last. |
| `RegionMap.RegionIndexBand` | ProceduralTerrainGenerator/Assets/Scripts/MapGenerator.cs:30-51 | With regions in increasing height, as the comment on `regions` asks, a cell falls in region i if and only if its height is in (height[i-1], height[i]]. |
| `RegionMap.ThreeBandExample` | ProceduralTerrainGenerator/Assets/Scripts/MapGenerator.cs:44-51 | Thresholds 0.3, 0.6 and 1.0 send heights 0.1, 0.5 and 0.9 to regions 0, 1 and 2. |
| `RegionMap.ClassifyCell` | ProceduralTerrainGenerator/Assets/Scripts/MapGenerator.cs:44-51 | The `for`/`break` loop matches if and only if some region covers the height, and then yields that first region's colour. |
| `RegionMap.ColoredStep` | ProceduralTerrainGenerator/Assets/Scripts/MapGenerator.cs:48 | Storing cell (x, y)'s colour at its slot keeps the colours of all earlier cells. |
| `RegionMap.DefaultStep` | ProceduralTerrainGenerator/Assets/Scripts/MapGenerator.cs:37-48 | Storing at cell (x, y)'s slot keeps every later slot at the default colour. |
| `RegionMap.ColorCell` | ProceduralTerrainGenerator/Assets/Scripts/MapGenerator.cs:42-51 | One cell: its slot gets its colour, or keeps the default when no region matches. |
| `RegionMap.ColorRow` | ProceduralTerrainGenerator/Assets/Scripts/MapGenerator.cs:40-52 | After the inner loop, row y is coloured and every later row still holds the default. |
| `RegionMap.GenerateColorMap` | ProceduralTerrainGenerator/Assets/Scripts/MapGenerator.cs:37-53 | The colour map has mapWidth * mapHeight entries, and slot y * mapWidth + x holds the colour of cell (x, y). |
| `LevelOfDetail.ScanFrom` | ProceduralTerrainGenerator/Assets/Scripts/EndlessTerrain.cs:176-182 | Resumed at i, the loop returns an index r at most Length-1. The distance exceeds every threshold before r, and unless r is the last index, it does not exceed threshold r. |
| `LevelOfDetail.LevelOfDetailIndex` | ProceduralTerrainGenerator/Assets/Scripts/EndlessTerrain.cs:172-185 | The result is in [0, Length-1]. It is the length of the longest prefix of thresholds[0..Length-2] that the distance strictly exceeds. |
| `LevelOfDetail.NearestIsFinest` | ProceduralTerrainGenerator/Assets/Scripts/EndlessTerrain.cs:172-185 | Within the first threshold, the index is 0. |
| `LevelOfDetail.LevelOfDetailIndexMonotone` | ProceduralTerrainGenerator/Assets/Scripts/EndlessTerrain.cs:172-185 | A larger distance never selects a smaller index, whatever the table's order. |
| `LevelOfDetail.LevelOfDetailIndexBand` | ProceduralTerrainGenerator/Assets/Scripts/EndlessTerrain.cs:172-185 | With ascending thresholds, the index is i if and only if the distance lies in (threshold[i-1], threshold[i]]. The last band is open above. |
| `LevelOfDetail.MaxViewDistance` | ProceduralTerrainGenerator/Assets/Scripts/EndlessTerrain.cs:35 | The maximum view distance is the last entry's threshold, and an empty table throws. With ascending thresholds it bounds every threshold. |
| `LevelOfDetail.VisibleLevelCovers` | ProceduralTerrainGenerator/Assets/Scripts/EndlessTerrain.cs:139-142 | For a chunk within the maximum view distance, the selected level's threshold covers the distance. |
| `LevelOfDetail.ColliderSlot` | ProceduralTerrainGenerator/Assets/Scripts/EndlessTerrain.cs:120-126 | The constructor's collider pick is the last flagged entry. It is absent if and only if no entry is flagged. |
| `TerrainChunks.NewChunk` | ProceduralTerrainGenerator/Assets/Scripts/EndlessTerrain.cs:97-131 | A new chunk satisfies the chunk invariant, is hidden, has no map data, shows no level, and has asked for no mesh. |
| `TerrainChunks.FreshMeshes` | ProceduralTerrainGenerator/Assets/Scripts/EndlessTerrain.cs:119-123 | One `LODMesh` per table entry, carrying that entry's level of detail, with neither flag set. |
| `TerrainChunks.FreshRequestsCompose` | ProceduralTerrainGenerator/Assets/Scripts/EndlessTerrain.cs:144-163 | The requests of the level block and of the collider block together are still fresh and distinct. |
| `TerrainChunks.RequestMesh` | ProceduralTerrainGenerator/Assets/Scripts/EndlessTerrain.cs:233-237 | `RequestMesh` on a slot not yet asked sets hasRequestedMesh on that slot only; nothing else changes. |
| `TerrainChunks.ShowLevel` | ProceduralTerrainGenerator/Assets/Scripts/EndlessTerrain.cs:144-154 | A cached mesh of the selected level is what the filter shows afterwards. On a change of level without a cached mesh, exactly that level is requested when not yet asked, and nothing otherwise. The shown level changes only to the selected level with its mesh present. |
| `TerrainChunks.UpdateCollider` | ProceduralTerrainGenerator/Assets/Scripts/EndlessTerrain.cs:156-163 | At level 0 the collider is attached exactly when its mesh is there. Otherwise exactly the collider slot is requested when not yet asked. No request and no change at other levels. |
| `TerrainChunks.UpdateVisible` | ProceduralTerrainGenerator/Assets/Scripts/EndlessTerrain.cs:140-167 | The visible branch keeps the chunk invariant and lists and shows the chunk. It requests exactly the slots the level and collider blocks want, each once. It shows a cached mesh of the selected level and attaches the collider mesh at level 0. |
| `TerrainChunks.BothBlocksAsk` | ProceduralTerrainGenerator/Assets/Scripts/EndlessTerrain.cs:144-163 | Run one after the other, the level block and the collider block ask exactly the slots either wants. When both want the same slot, it is asked once. |
| `TerrainChunks.UpdateTerrainChunk` | ProceduralTerrainGenerator/Assets/Scripts/EndlessTerrain.cs:133-170 | Without map data nothing changes. With it, the chunk is shown and listed if and only if distance <= maxViewDistance. The requested slots are exactly those the level and collider blocks want, only for a chunk in range, and each never asked before; a hidden chunk asks for nothing. A cached mesh of the selected level is shown, and the shown level changes only to it. The collider is attached exactly when it was, or level 0 is selected with its mesh present. |
| `TerrainChunks.ReceiveMapData` | ProceduralTerrainGenerator/Assets/Scripts/EndlessTerrain.cs:197-206 | After the map data arrives, the chunk has it, and is shown and listed if and only if it is in range. No mesh is shown or attached yet. A chunk in range asks for its level's mesh, and at level 0 also for the collider mesh; a chunk out of range asks for nothing. |
| `TerrainChunks.NothingAskedYet` | ProceduralTerrainGenerator/Assets/Scripts/EndlessTerrain.cs:133-163 | Before its map data, a chunk has asked for nothing and shows nothing. Its first update at level lod therefore wants exactly slot lod, plus the collider slot at level 0. |
| `TerrainChunks.ReceiveMeshData` | ProceduralTerrainGenerator/Assets/Scripts/EndlessTerrain.cs:225-231 | The slot's mesh is present afterwards, and the callback's update keeps the invariant. Visibility follows the distance. The arrived mesh is shown when its slot is the selected level of a chunk in range, and attached when it is the collider mesh at level 0. The requested slots are exactly those the callback's update wants. No other slot's mesh arrives with it, and the shown level changes only to the selected level of a chunk in range. |
| `TerrainChunks.MeshArrivalValid` | ProceduralTerrainGenerator/Assets/Scripts/EndlessTerrain.cs:225-228 | A mesh arriving for a slot that asked for one keeps the chunk invariant and changes no request flag. |
| `TerrainChunks.ArrivalAsks` | ProceduralTerrainGenerator/Assets/Scripts/EndlessTerrain.cs:225-231 | An arriving mesh changes which slots an update wants not at all, and makes exactly its own slot newly present. |
| `EndlessTerrain.StoreListed` | ProceduralTerrainGenerator/Assets/Scripts/EndlessTerrain.cs:166 | A chunk that shows itself has appended itself to the visible list, so the list still names every shown chunk. |
| `EndlessTerrain.StoreChunksValid` | ProceduralTerrainGenerator/Assets/Scripts/EndlessTerrain.cs:70-71 | Replacing one chunk by a chunk that keeps the chunk invariant keeps it for the whole map. |
| `EndlessTerrain.StoreLogSound` | ProceduralTerrainGenerator/Assets/Scripts/EndlessTerrain.cs:147-162 | Logging one chunk update's fresh mesh requests never duplicates a logged request. Every logged request is still recorded in the state. |
| `EndlessTerrain.StoreLogComplete` | ProceduralTerrainGenerator/Assets/Scripts/EndlessTerrain.cs:147-162 | After a chunk update, every slot marked as asked has its request in the log. |
| `EndlessTerrain.AddChunkLog` | ProceduralTerrainGenerator/Assets/Scripts/EndlessTerrain.cs:73 | Adding a chunk with its one map-data request keeps the log duplicate-free and complete. |
| `EndlessTerrain.ApplyStep` | ProceduralTerrainGenerator/Assets/Scripts/EndlessTerrain.cs:70-71 | Storing an update of an existing chunk keeps the controller invariant. |
| `EndlessTerrain.CreateChunk` | ProceduralTerrainGenerator/Assets/Scripts/EndlessTerrain.cs:72-73 | A missing coordinate gets a fresh hidden chunk and exactly one map-data request, and the controller invariant holds. |
| `EndlessTerrain.VisitCoord` | ProceduralTerrainGenerator/Assets/Scripts/EndlessTerrain.cs:68-73 | A coordinate that is a key gets its chunk's update; otherwise it is created with one map-data request. No other key is touched, keys are never removed, and the log only grows. |
| `EndlessTerrain.HideListed` | ProceduralTerrainGenerator/Assets/Scripts/EndlessTerrain.cs:56-57 | Exactly the chunks on the list are hidden; nothing else changes. |
| `EndlessTerrain.HiddenValid` | ProceduralTerrainGenerator/Assets/Scripts/EndlessTerrain.cs:56-59 | Since every shown chunk is listed, after hiding and clearing every chunk is hidden and the invariant holds. |
| `EndlessTerrain.HidePreviouslyVisible` | ProceduralTerrainGenerator/Assets/Scripts/EndlessTerrain.cs:56-59 | Afterwards every chunk is hidden and otherwise unchanged, the list is empty, and the invariant holds. |
| `EndlessTerrain.WindowOrder` | ProceduralTerrainGenerator/Assets/Scripts/EndlessTerrain.cs:64-68 | The nested loops visit exactly the (2k+1) x (2k+1) window, in strictly increasing row-major order. That means each coordinate once, rows by y and each row by x. |
| `EndlessTerrain.WalkStart` | ProceduralTerrainGenerator/Assets/Scripts/EndlessTerrain.cs:56-64 | Right after hiding, with nothing visited yet, the walk's invariant holds. |
| `EndlessTerrain.WalkStep` | ProceduralTerrainGenerator/Assets/Scripts/EndlessTerrain.cs:68-73 | Visiting one new coordinate extends the visited set by it. Unvisited keys keep their hidden chunks, and new keys hold fresh chunks. |
| `EndlessTerrain.UpdatedStep` | ProceduralTerrainGenerator/Assets/Scripts/EndlessTerrain.cs:70-71 | Visiting one coordinate leaves its own update in its chunk, if the chunk existed, and no other chunk changes. |
| `EndlessTerrain.VisitHead` | ProceduralTerrainGenerator/Assets/Scripts/EndlessTerrain.cs:64-73 | Visiting the next coordinate keeps the walk's invariant, and the rest stay unvisited. |
| `EndlessTerrain.VisitAll` | ProceduralTerrainGenerator/Assets/Scripts/EndlessTerrain.cs:64-75 | Visiting a list of distinct unvisited coordinates extends the visited set by all of them, keeping the walk's invariant. |
| `EndlessTerrain.WalkComplete` | ProceduralTerrainGenerator/Assets/Scripts/EndlessTerrain.cs:54-76 | Once exactly the window has been visited, the recompute's promises hold (see `UpdateVisibleChunks`). |
| `EndlessTerrain.UpdateVisibleChunks` | ProceduralTerrainGenerator/Assets/Scripts/EndlessTerrain.cs:54-76 | Every window coordinate becomes a key, and no key is removed. New keys are fresh hidden chunks, each with its map-data request. Existing window chunks hold their own update of the hidden chunk. Chunks outside the window are hidden and untouched. Only window chunks are shown, and only shown window chunks that already existed are listed (a new chunk starts hidden), the log only grows, and the invariant holds. |
| `EndlessTerrain.WalkWindow` | ProceduralTerrainGenerator/Assets/Scripts/EndlessTerrain.cs:61-75 | The window loops, run on the hidden state, give the recompute's promises. |
| `EndlessTerrain.Start` | ProceduralTerrainGenerator/Assets/Scripts/EndlessTerrain.cs:31-41 | maxViewDistance is the last threshold. The keys are exactly the window around (0, 0), each holding a fresh chunk. The log holds exactly one request per chunk, and the invariant holds. Both viewer positions keep their zero default, so the first `Update` measures movement from the origin, and no chunk is listed as visible yet. |
| `EndlessTerrain.IssuedAreTheMapRequests` | ProceduralTerrainGenerator/Assets/Scripts/EndlessTerrain.cs:73 | A valid log that holds only map-data requests has exactly one entry per chunk. |
| `EndlessTerrain.DistinctCoords` | ProceduralTerrainGenerator/Assets/Scripts/EndlessTerrain.cs:73 | Distinct map-data requests name as many distinct coordinates as there are requests. |
| `EndlessTerrain.Update` | ProceduralTerrainGenerator/Assets/Scripts/EndlessTerrain.cs:43-52 | The viewer position is always refreshed. When the squared move exceeds 25², the reference position moves, and the result is exactly what `UpdateVisibleChunks` promises around the viewer's chunk. Otherwise nothing else changes. Keys are never removed, and the invariant holds. |
| `EndlessTerrain.OnMapDataReceived` | ProceduralTerrainGenerator/Assets/Scripts/EndlessTerrain.cs:197-206 | The chunk holds what its own `ReceiveMapData` made of it. The mesh requests that update made are appended to the log, and the chunk is listed when shown. Other chunks are untouched, and no request is duplicated. |
| `EndlessTerrain.OnMeshDataReceived` | ProceduralTerrainGenerator/Assets/Scripts/EndlessTerrain.cs:225-231 | The chunk holds what `ReceiveMeshData` made of it, so the slot's mesh is present and is shown when it is the selected level. Its new requests are appended to the log, and other chunks are untouched. No request is duplicated. |

## Left out

- **Noise generation.** `Noise.GenerateNoiseMap` is float fractal accumulation
  over `Mathf.PerlinNoise` and `System.Random`; the colour map takes the noise
  map as an input. Its `scale <= 0` repair is not modelled either.
- **Unity objects.** Game objects, transforms, renderers, materials,
  textures, `MeshData.CreateMesh`, `RecalculateNormals`, the map display and
  `FindObjectOfType` are engine calls. Visibility, the shown level and the
  attached collider are kept as flags and indices instead of meshes.
- **Float arithmetic.** Floats are reals, so rounding, NaN and infinities are
  not represented. The vertex x/z positions and UV fractions are exact real
  expressions.
- **Engine inputs.**
  - The viewer's rounded chunk coordinate (`Mathf.RoundToInt` of position
    over chunk size) and `_visibleChunkCount` are inputs, because
    `MapGenerator.mapChunkSize` is not part of this model.
  - The distance from the viewer to a chunk's bounds (`Bounds.SqrDistance`
    and `Mathf.Sqrt`) is an input function of the chunk coordinate.
- **The asynchronous request path.** `RequestMapData`, `RequestMeshData`,
  their threads and queues, and the `MapData` contents are not part of this
  model. A request is an entry in the log, and a reply is an event that may
  arrive whenever it is pending.
- **`UpdatableData`.** `base.OnValidate` in `NoiseData.OnValidate` is not
  part of this model.
- **Other files.** `MapGeneratorEditor.cs` (editor UI) and `TerrainData.cs`
  (plain fields) are not modelled.
- **Static state.** The static `viewerPosition`, `_previousViewerPosition`,
  `maxViewDistance` and visible list are fields of the `Terrain` value. The
  static map generator is represented by the `issued` log of requests sent
  to it.
- **Chunk texture.** `OnMapDataReceived` builds the chunk's texture from the
  colour map and applies it to the renderer material. That is a render
  effect and is left out, and so is the stored `MapData`.
- **32-bit integers.** C# `int` arithmetic wraps silently on overflow. This
  affects `width * height` and `(width - 1) * (height - 1) * 6` in the
  `MeshData` constructor, the vertex and triangle cursors, and chunk
  coordinates plus window offsets. The model uses unbounded integers, so it
  accepts every grid size. It does not model the wrapped sizes, or the
  exceptions or out-of-memory failures the C# meets for grids whose buffer
  sizes pass 2^31 - 1.
- `TerrainChunks.NewChunk`: requires a table with a `useForCollider` entry.
  Without one, the C# leaves `_collisionLevelOfDetailMesh` null and
  dereferences it once a chunk reaches level 0 (EndlessTerrain.cs:158). The
  controller's invariant `EndlessTerrain.Valid` carries the same requirement.
- `EndlessTerrain.Start`: requires the same collider entry.
  `_visibleChunkCount` is an input rather than computed from the chunk size.
- `TerrainChunks.ReceiveMeshData`: models a reply only for a slot that asked
  for a mesh; a reply nobody asked for cannot occur in the source.
- `EndlessTerrain.OnMeshDataReceived`: models a reply only while it is
  pending, that is, asked for and not yet arrived. Each request is answered
  once.

=== FILE: chunk.dfy ===
/** `EndlessTerrain.TerrainChunk` and `EndlessTerrain.LODMesh` as a state
    machine. A chunk waits for its map data; once it has it, every update
    decides visibility from the viewer's distance, picks a level of detail,
    shows a cached mesh for it or asks for one, and does the same for the
    collider mesh at the finest level. Meshes themselves, renderers and the
    viewer geometry are not modelled: the distance from the viewer to the
    chunk's bounds is an input. */
module TerrainChunks {
  import opened Wrappers
  import opened LevelOfDetail

  /** The flags of `EndlessTerrain.LODMesh` (the mesh itself is left out). */
  datatype LODMesh = LODMesh(levelOfDetail: int, hasRequestedMesh: bool, hasMesh: bool)

  /** The state of a `TerrainChunk`:
      - `lodMeshes`: one `LODMesh` per table entry (`_levelOfDetailMeshes`);
      - `colliderSlot`: the index of `_collisionLevelOfDetailMesh` in it;
      - `previousLevelOfDetailIndex`: the level whose mesh the filter shows, -1 for none;
      - `colliderAttached`: whether the collider mesh was handed to the collider;
      - `mapDataReceived`, `visible`: `_mapDataReceived` and the object's active flag. */
  datatype Chunk = Chunk(
    lodMeshes: seq<LODMesh>,
    colliderSlot: nat,
    previousLevelOfDetailIndex: int,
    colliderAttached: bool,
    mapDataReceived: bool,
    visible: bool)

  /** The result of `UpdateTerrainChunk`: the new chunk, the LOD slots it asked
      meshes for (in order), and whether it added itself to the controller's
      list of visible chunks. */
  datatype ChunkStep = ChunkStep(chunk: Chunk, requests: seq<nat>, listed: bool)

  predicate NoDuplicates<T(==)>(s: seq<T>) {
    forall i, j :: 0 <= i < j < |s| ==> s[i] != s[j]
  }

  /** What holds of every chunk the controller owns, for its LOD table. */
  ghost predicate ChunkValid(c: Chunk, table: seq<LODData>) {
    && |c.lodMeshes| == |table| > 0
    && ColliderSlot(table) == Some(c.colliderSlot)
    && (forall i :: 0 <= i < |table| ==> c.lodMeshes[i].levelOfDetail == table[i].levelOfDetail)
    // A mesh only ever arrives for a slot that asked for one.
    && (forall i :: 0 <= i < |table| ==> c.lodMeshes[i].hasMesh ==> c.lodMeshes[i].hasRequestedMesh)
    // Meshes are only asked for once the map data is there.
    && (forall i :: 0 <= i < |table| ==> c.lodMeshes[i].hasRequestedMesh ==> c.mapDataReceived)
    // The filter only ever shows a mesh that is present.
    && (c.previousLevelOfDetailIndex == -1 ||
         (0 <= c.previousLevelOfDetailIndex < |table| && c.lodMeshes[c.previousLevelOfDetailIndex].hasMesh))
    && (c.colliderAttached ==> c.lodMeshes[c.colliderSlot].hasMesh)
    && (c.visible ==> c.mapDataReceived)
  }

  /** The `TerrainChunk` constructor: one fresh `LODMesh` per table entry, no
      mesh shown, hidden. (The map-data request it issues is the controller's
      business.) */
  function NewChunk(table: seq<LODData>): (c: Chunk)
    requires ColliderSlot(table).Some?
    ensures ChunkValid(c, table)
    ensures !c.visible && !c.mapDataReceived && c.previousLevelOfDetailIndex == -1
    ensures forall i :: 0 <= i < |c.lodMeshes| ==> !c.lodMeshes[i].hasRequestedMesh && !c.lodMeshes[i].hasMesh
  {
    Chunk(FreshMeshes(table), ColliderSlot(table).value, -1, false, false, false)
  }

  /** The constructor's loop over the table: one `LODMesh` per entry, nothing
      asked for yet. */
  function FreshMeshes(table: seq<LODData>): (ms: seq<LODMesh>)
    ensures |ms| == |table|
    ensures forall i :: 0 <= i < |table| ==> ms[i] == LODMesh(table[i].levelOfDetail, false, false)
  {
    if |table| == 0 then []
    else FreshMeshes(table[..|table| - 1]) + [LODMesh(table[|table| - 1].levelOfDetail, false, false)]
  }

  /** The slots asked for going from `before` to `after` are exactly
      `requests`: each of them a slot never asked before, none listed twice. */
  ghost predicate AsksExactly(before: Chunk, after: Chunk, requests: seq<nat>) {
    && |after.lodMeshes| == |before.lodMeshes|
    && NoDuplicates(requests)
    && (forall k :: k in requests ==> k < |before.lodMeshes| && !before.lodMeshes[k].hasRequestedMesh)
    && (forall k :: 0 <= k < |before.lodMeshes| ==>
          (after.lodMeshes[k].hasRequestedMesh <==> before.lodMeshes[k].hasRequestedMesh || k in requests))
  }

  /** `after` differs from `before` only by asking meshes for `requests`
      (see `AsksExactly`); meshes and levels of detail are untouched. */
  ghost predicate FreshRequests(before: Chunk, after: Chunk, requests: seq<nat>) {
    && AsksExactly(before, after, requests)
    && (forall k :: 0 <= k < |before.lodMeshes| ==>
          && after.lodMeshes[k].hasMesh == before.lodMeshes[k].hasMesh
          && after.lodMeshes[k].levelOfDetail == before.lodMeshes[k].levelOfDetail)
  }

  lemma FreshRequestsCompose(c0: Chunk, c1: Chunk, c2: Chunk, r1: seq<nat>, r2: seq<nat>)
    requires FreshRequests(c0, c1, r1) && FreshRequests(c1, c2, r2)
    ensures FreshRequests(c0, c2, r1 + r2)
  {
    var r := r1 + r2;
    forall i, j | 0 <= i < j < |r|
      ensures r[i] != r[j]
    {
      if i < |r1| && j >= |r1| {
        assert r[i] in r1 && r[j] in r2;
      }
    }
  }

  /** `LODMesh.RequestMesh`: marks the slot as asked for. */
  function RequestMesh(c: Chunk, slot: nat): (r: Chunk)
    requires slot < |c.lodMeshes| && !c.lodMeshes[slot].hasRequestedMesh
    ensures FreshRequests(c, r, [slot])
    ensures r.lodMeshes[slot].hasRequestedMesh
    ensures r == c.(lodMeshes := r.lodMeshes)
  {
    c.(lodMeshes := c.lodMeshes[slot := c.lodMeshes[slot].(hasRequestedMesh := true)])
  }

  /** Slot `k` is asked for by the level block at selected level `lod`: the
      level changed and its mesh is neither present nor asked for. */
  predicate LevelAsks(c: Chunk, lod: nat, k: nat) {
    && k == lod && lod != c.previousLevelOfDetailIndex
    && k < |c.lodMeshes| && !c.lodMeshes[k].hasMesh && !c.lodMeshes[k].hasRequestedMesh
  }

  /** Slot `k` is asked for by the collider block at selected level `lod`: the
      finest level is selected and the collider mesh is neither present nor
      asked for. */
  predicate ColliderAsks(c: Chunk, lod: nat, k: nat) {
    && lod == 0 && k == c.colliderSlot
    && k < |c.lodMeshes| && !c.lodMeshes[k].hasMesh && !c.lodMeshes[k].hasRequestedMesh
  }

  /** The slots one visible update at level `lod` asks meshes for, judged
      against the chunk before the update. */
  predicate Asks(c: Chunk, lod: nat, k: nat) {
    LevelAsks(c, lod, k) || ColliderAsks(c, lod, k)
  }

  /** The `if (levelOfDetailIndex != _previousLevelOfDetailIndex)` block: on
      a change of level, show the cached mesh of `lod` if there is one, else
      ask for it unless already asked. After a change the level's mesh is
      present or on its way, and the shown level only moves to a present mesh. */
  function ShowLevel(c: Chunk, lod: nat): (r: (Chunk, seq<nat>))
    requires lod < |c.lodMeshes|
    ensures FreshRequests(c, r.0, r.1)
    ensures r.1 == (if LevelAsks(c, lod, lod) then [lod] else [])
    // A cached mesh of the selected level is what the filter shows afterwards.
    ensures c.lodMeshes[lod].hasMesh ==> r.0.previousLevelOfDetailIndex == lod
    ensures lod != c.previousLevelOfDetailIndex ==> r.0.lodMeshes[lod].hasMesh || r.0.lodMeshes[lod].hasRequestedMesh
    ensures r.0.previousLevelOfDetailIndex != c.previousLevelOfDetailIndex ==>
      r.0.previousLevelOfDetailIndex == lod && r.0.lodMeshes[lod].hasMesh
    ensures r.0 == c.(lodMeshes := r.0.lodMeshes, previousLevelOfDetailIndex := r.0.previousLevelOfDetailIndex)
  {
    var m := c.lodMeshes[lod];
    if lod == c.previousLevelOfDetailIndex then (c, [])
    else if m.hasMesh then (c.(previousLevelOfDetailIndex := lod), [])
    else if !m.hasRequestedMesh then (RequestMesh(c, lod), [lod])
    else (c, [])
  }

  /** The `if (levelOfDetailIndex == 0)` block: at the finest level, attach
      the collider mesh if it is there, else ask for it unless already asked.
      Afterwards the collider mesh is present or on its way. */
  function UpdateCollider(c: Chunk, lod: nat): (r: (Chunk, seq<nat>))
    requires c.colliderSlot < |c.lodMeshes|
    ensures FreshRequests(c, r.0, r.1)
    ensures r.1 == (if ColliderAsks(c, lod, c.colliderSlot) then [c.colliderSlot] else [])
    ensures lod == 0 ==> r.0.lodMeshes[c.colliderSlot].hasMesh || r.0.lodMeshes[c.colliderSlot].hasRequestedMesh
    ensures r.0.colliderAttached == (c.colliderAttached || (lod == 0 && c.lodMeshes[c.colliderSlot].hasMesh))
    ensures r.0 == c.(lodMeshes := r.0.lodMeshes, colliderAttached := r.0.colliderAttached)
  {
    var m := c.lodMeshes[c.colliderSlot];
    if lod != 0 then (c, [])
    else if m.hasMesh then (c.(colliderAttached := true), [])
    else if !m.hasRequestedMesh then (RequestMesh(c, c.colliderSlot), [c.colliderSlot])
    else (c, [])
  }

  /** The visible branch of `UpdateTerrainChunk` for selected level `lod`. */
  function UpdateVisible(table: seq<LODData>, c: Chunk, lod: nat): (s: ChunkStep)
    requires ChunkValid(c, table) && c.mapDataReceived && lod < |table|
    ensures ChunkValid(s.chunk, table)
    ensures FreshRequests(c, s.chunk, s.requests)
    ensures forall k :: k in s.requests <==> Asks(c, lod, k)
    ensures s.chunk.visible && s.listed && s.chunk.mapDataReceived && s.chunk.colliderSlot == c.colliderSlot
    ensures s.chunk.lodMeshes[lod].hasMesh || s.chunk.lodMeshes[lod].hasRequestedMesh
    ensures c.lodMeshes[lod].hasMesh ==> s.chunk.previousLevelOfDetailIndex == lod
    ensures s.chunk.previousLevelOfDetailIndex != c.previousLevelOfDetailIndex ==>
      s.chunk.previousLevelOfDetailIndex == lod && s.chunk.lodMeshes[lod].hasMesh
    ensures s.chunk.colliderAttached == (c.colliderAttached || (lod == 0 && c.lodMeshes[c.colliderSlot].hasMesh))
  {
    var (c1, r1) := ShowLevel(c, lod);
    var (c2, r2) := UpdateCollider(c1, lod);
    FreshRequestsCompose(c, c1, c2, r1, r2);
    BothBlocksAsk(c, lod);
    ChunkStep(c2.(visible := true), r1 + r2, true)
  }

  /** The level block followed by the collider block asks exactly the slots
      `Asks` names: when both want the same slot, the collider block finds it
      already asked. */
  lemma BothBlocksAsk(c: Chunk, lod: nat)
    requires lod < |c.lodMeshes| && c.colliderSlot < |c.lodMeshes|
    ensures var r1 := ShowLevel(c, lod).1;
      var r2 := UpdateCollider(ShowLevel(c, lod).0, lod).1;
      forall k :: k in r1 + r2 <==> Asks(c, lod, k)
  {
    var (c1, r1) := ShowLevel(c, lod);
    var r2 := UpdateCollider(c1, lod).1;
    assert forall k :: k in r1 + r2 <==> k in r1 || k in r2;
  }

  /** `TerrainChunk.UpdateTerrainChunk`, given the distance from the viewer to
      the chunk's bounds. */
  function UpdateTerrainChunk(table: seq<LODData>, maxViewDistance: real, c: Chunk, distance: real): (s: ChunkStep)
    requires ChunkValid(c, table)
    ensures ChunkValid(s.chunk, table)
    // Nothing happens before the map data has arrived.
    ensures !c.mapDataReceived ==> s == ChunkStep(c, [], false)
    // Afterwards the chunk is shown, and listed, exactly when it is in range.
    ensures c.mapDataReceived ==> s.chunk.visible == (distance <= maxViewDistance) && s.listed == s.chunk.visible
    ensures s.chunk.mapDataReceived == c.mapDataReceived && s.chunk.colliderSlot == c.colliderSlot
    // No duplicate mesh request: only slots never asked before are asked, each once.
    ensures FreshRequests(c, s.chunk, s.requests)
    // Which slots are asked: those the level and collider blocks want, and only for a chunk in range.
    ensures forall k :: k in s.requests <==>
      c.mapDataReceived && distance <= maxViewDistance && Asks(c, LevelOfDetailIndex(table, distance), k)
    ensures distance > maxViewDistance ==> s.requests == []
    // A shown chunk has the mesh of its selected level, or has asked for it.
    ensures s.chunk.visible ==>
      var lod := LevelOfDetailIndex(table, distance);
      s.chunk.lodMeshes[lod].hasMesh || s.chunk.lodMeshes[lod].hasRequestedMesh
    // A cached mesh of the selected level is shown.
    ensures var lod := LevelOfDetailIndex(table, distance);
      c.mapDataReceived && distance <= maxViewDistance && c.lodMeshes[lod].hasMesh ==>
        s.chunk.previousLevelOfDetailIndex == lod
    // The shown level only ever switches to the selected level, and only when its mesh is present.
    ensures s.chunk.previousLevelOfDetailIndex != c.previousLevelOfDetailIndex ==>
      && s.chunk.previousLevelOfDetailIndex == LevelOfDetailIndex(table, distance)
      && distance <= maxViewDistance
      && s.chunk.lodMeshes[s.chunk.previousLevelOfDetailIndex].hasMesh
    // The collider gets its mesh at the finest level, once the mesh is there.
    ensures s.chunk.colliderAttached == (c.colliderAttached ||
      (c.mapDataReceived && distance <= maxViewDistance && LevelOfDetailIndex(table, distance) == 0 &&
       c.lodMeshes[c.colliderSlot].hasMesh))
  {
    if !c.mapDataReceived then ChunkStep(c, [], false)
    else if distance <= maxViewDistance then UpdateVisible(table, c, LevelOfDetailIndex(table, distance))
    else ChunkStep(c.(visible := false), [], false)
  }

  /** `OnMapDataReceived`: record the map data, then update. No mesh has been
      asked for yet, so none is shown; a chunk in range asks for its level's
      mesh, and at the finest level for the collider mesh too. */
  function ReceiveMapData(table: seq<LODData>, maxViewDistance: real, c: Chunk, distance: real): (s: ChunkStep)
    requires ChunkValid(c, table) && !c.mapDataReceived
    ensures ChunkValid(s.chunk, table)
    ensures FreshRequests(c, s.chunk, s.requests)
    ensures s.chunk.mapDataReceived
    ensures s.chunk.visible == (distance <= maxViewDistance) && s.listed == s.chunk.visible
    ensures forall k :: k in s.requests <==>
      var lod := LevelOfDetailIndex(table, distance);
      distance <= maxViewDistance && (k == lod || (lod == 0 && k == c.colliderSlot))
    ensures s.chunk.previousLevelOfDetailIndex == -1 && !s.chunk.colliderAttached
  {
    NothingAskedYet(table, c, LevelOfDetailIndex(table, distance));
    UpdateTerrainChunk(table, maxViewDistance, c.(mapDataReceived := true), distance)
  }

  /** Before its map data a chunk has asked for nothing and shows nothing, so
      an update at level `lod` asks for that level's mesh and, at the finest
      level, for the collider mesh. */
  lemma NothingAskedYet(table: seq<LODData>, c: Chunk, lod: nat)
    requires ChunkValid(c, table) && !c.mapDataReceived && lod < |table|
    ensures c.previousLevelOfDetailIndex == -1 && !c.colliderAttached
    ensures forall k :: Asks(c, lod, k) <==> k == lod || (lod == 0 && k == c.colliderSlot)
  {
    assert forall k :: 0 <= k < |table| ==> !c.lodMeshes[k].hasRequestedMesh && !c.lodMeshes[k].hasMesh;
  }

  /** `LODMesh.OnMeshDataReceived` for `slot`, whose callback is the owning
      chunk's `UpdateTerrainChunk`: the arrived mesh is shown when its slot
      is the selected level, and attached when it is the collider mesh at
      the finest level. */
  function ReceiveMeshData(table: seq<LODData>, maxViewDistance: real, c: Chunk, slot: nat, distance: real): (s: ChunkStep)
    requires ChunkValid(c, table)
    requires slot < |table| && c.lodMeshes[slot].hasRequestedMesh
    ensures ChunkValid(s.chunk, table)
    ensures AsksExactly(c, s.chunk, s.requests)
    ensures s.chunk.lodMeshes[slot].hasMesh
    // No other slot's mesh arrives with it.
    ensures forall k :: 0 <= k < |table| && k != slot ==> s.chunk.lodMeshes[k].hasMesh == c.lodMeshes[k].hasMesh
    ensures s.chunk.visible == (distance <= maxViewDistance) && s.listed == s.chunk.visible
    ensures forall k :: k in s.requests <==>
      distance <= maxViewDistance && Asks(c, LevelOfDetailIndex(table, distance), k)
    // The shown level only switches to the selected level of a chunk in range.
    ensures s.chunk.previousLevelOfDetailIndex != c.previousLevelOfDetailIndex ==>
      distance <= maxViewDistance && s.chunk.previousLevelOfDetailIndex == LevelOfDetailIndex(table, distance)
    ensures var lod := LevelOfDetailIndex(table, distance);
      distance <= maxViewDistance && (lod == slot || c.lodMeshes[lod].hasMesh) ==>
        s.chunk.previousLevelOfDetailIndex == lod
    ensures s.chunk.colliderAttached == (c.colliderAttached ||
      (distance <= maxViewDistance && LevelOfDetailIndex(table, distance) == 0 &&
       (c.colliderSlot == slot || c.lodMeshes[c.colliderSlot].hasMesh)))
  {
    var c1 := c.(lodMeshes := c.lodMeshes[slot := c.lodMeshes[slot].(hasMesh := true)]);
    MeshArrivalValid(table, c, slot);
    var s := UpdateTerrainChunk(table, maxViewDistance, c1, distance);
    AsksExactlyAfterArrival(c, c1, s.chunk, s.requests);
    ArrivalAsks(c, slot, LevelOfDetailIndex(table, distance));
    s
  }

  /** After a mesh arrives for an asked slot, the same slots are wanted, and
      exactly the arrived slot has newly become present. */
  lemma ArrivalAsks(c: Chunk, slot: nat, lod: nat)
    requires slot < |c.lodMeshes| && c.lodMeshes[slot].hasRequestedMesh
    ensures var c1 := c.(lodMeshes := c.lodMeshes[slot := c.lodMeshes[slot].(hasMesh := true)]);
      && (forall k :: Asks(c1, lod, k) <==> Asks(c, lod, k))
      && (forall k :: 0 <= k < |c.lodMeshes| ==> (c1.lodMeshes[k].hasMesh <==> k == slot || c.lodMeshes[k].hasMesh))
  {
  }

  /** A mesh arriving for a slot that asked for it keeps the chunk valid and
      changes no request flag. */
  lemma MeshArrivalValid(table: seq<LODData>, c: Chunk, slot: nat)
    requires ChunkValid(c, table)
    requires slot < |table| && c.lodMeshes[slot].hasRequestedMesh
    ensures var c1 := c.(lodMeshes := c.lodMeshes[slot := c.lodMeshes[slot].(hasMesh := true)]);
      && ChunkValid(c1, table)
      && |c1.lodMeshes| == |c.lodMeshes|
      && (forall k :: 0 <= k < |c.lodMeshes| ==> c1.lodMeshes[k].hasRequestedMesh == c.lodMeshes[k].hasRequestedMesh)
  {
  }

  /** Requests are counted against the request flags only. */
  lemma AsksExactlyAfterArrival(c: Chunk, c1: Chunk, after: Chunk, requests: seq<nat>)
    requires |c1.lodMeshes| == |c.lodMeshes|
    requires forall k :: 0 <= k < |c.lodMeshes| ==> c1.lodMeshes[k].hasRequestedMesh == c.lodMeshes[k].hasRequestedMesh
    requires AsksExactly(c1, after, requests)
    ensures AsksExactly(c, after, requests)
  {
  }

}

=== FILE: endless.dfy ===
/** The `EndlessTerrain` controller: the map from integer chunk coordinates to
    chunks, the list of chunks shown by the last recompute, the movement
    threshold that gates recomputes, and the asynchronous replies that arrive
    later. Every map-data and mesh request ever issued is logged in `issued`,
    so that "never asked twice" is a statement about the state.

    Inputs that stand in for engine geometry: the viewer's rounded chunk
    coordinate (`Mathf.RoundToInt(viewerPosition / _chunkSize)`), the number
    of chunks visible in each direction (`_visibleChunkCount`), and the
    distance from the viewer to a chunk's bounds (`distance`). */
module EndlessTerrain {
  import opened Wrappers
  import opened LevelOfDetail
  import opened TerrainChunks
  import opened Vectors

  /** The integer chunk coordinate that keys `_terrainChunkDictionary`. */
  datatype Coord = Coord(x: int, y: int)

  /** An asynchronous request to the map generator. */
  datatype Request =
    | MapDataRequest(coord: Coord)
    | MeshDataRequest(coord: Coord, slot: nat)

  /** The controller. `previouslyVisible` is the static
      `_previouslyVisibleTerrainChunks` list; `viewerPosition` and
      `previousViewerPosition` are in chunk space (world position / _scale). */
  datatype Terrain = Terrain(
    table: seq<LODData>,
    maxViewDistance: real,
    visibleChunkCount: int,
    chunks: map<Coord, Chunk>,
    previouslyVisible: seq<Coord>,
    viewerPosition: Vector2,
    previousViewerPosition: Vector2,
    issued: seq<Request>)

  /** `_moveDistanceThresholdForChunkUpdate` and `_scale`. */
  const MoveThreshold: real := 25.0
  const SqrMoveThreshold: real := MoveThreshold * MoveThreshold
  const Scale: real := 2.0

  /** A logged request still corresponds to state: the chunk exists and, for
      a mesh, its slot is marked as asked. */
  ghost predicate RequestRecorded(chunks: map<Coord, Chunk>, r: Request) {
    match r
    case MapDataRequest(c) => c in chunks
    case MeshDataRequest(c, k) => c in chunks && k < |chunks[c].lodMeshes| && chunks[c].lodMeshes[k].hasRequestedMesh
  }

  /** Every chunk is valid for the table. */
  ghost predicate ChunksValid(chunks: map<Coord, Chunk>, table: seq<LODData>) {
    forall c :: c in chunks ==> ChunkValid(chunks[c], table)
  }

  /** The visible list names only chunks, and every shown chunk is on it, so
      the next recompute hides it. */
  ghost predicate ListCoversVisible(chunks: map<Coord, Chunk>, list: seq<Coord>) {
    && (forall c :: c in chunks && chunks[c].visible ==> c in list)
    && (forall i :: 0 <= i < |list| ==> list[i] in chunks)
  }

  /** Nothing is logged twice, and every logged request is recorded in the state. */
  ghost predicate LogSound(chunks: map<Coord, Chunk>, issued: seq<Request>) {
    && NoDuplicates(issued)
    && (forall i :: 0 <= i < |issued| ==> RequestRecorded(chunks, issued[i]))
  }

  /** Everything the state records as asked is in the log. */
  ghost predicate LogComplete(chunks: map<Coord, Chunk>, issued: seq<Request>) {
    && (forall c :: c in chunks ==> MapDataRequest(c) in issued)
    && (forall c, k :: c in chunks && 0 <= k < |chunks[c].lodMeshes| && chunks[c].lodMeshes[k].hasRequestedMesh
          ==> MeshDataRequest(c, k) in issued)
  }

  /** The controller's invariant. */
  ghost predicate Valid(t: Terrain) {
    && ColliderSlot(t.table).Some?
    && t.maxViewDistance == t.table[|t.table| - 1].visibleDistanceThreshold
    && ChunksValid(t.chunks, t.table)
    && ListCoversVisible(t.chunks, t.previouslyVisible)
    && LogSound(t.chunks, t.issued)
    && LogComplete(t.chunks, t.issued)
  }

  /** The mesh requests of one chunk update, in order. */
  function MeshRequests(c: Coord, slots: seq<nat>): (rs: seq<Request>)
    ensures |rs| == |slots|
    ensures forall i :: 0 <= i < |slots| ==> rs[i] == MeshDataRequest(c, slots[i])
  {
    if |slots| == 0 then [] else [MeshDataRequest(c, slots[0])] + MeshRequests(c, slots[1..])
  }

  /** The coordinates of the (2k+1) x (2k+1) window around `center`. */
  predicate InWindow(center: Coord, k: int, c: Coord) {
    -k <= c.x - center.x <= k && -k <= c.y - center.y <= k
  }

  // ---------------------------------------------------------------------------
  // The invariant across one chunk update

  lemma StoreChunksValid(chunks: map<Coord, Chunk>, table: seq<LODData>, coord: Coord, c: Chunk)
    requires ChunksValid(chunks, table) && ChunkValid(c, table)
    ensures ChunksValid(chunks[coord := c], table)
  {
  }

  lemma StoreListed(chunks: map<Coord, Chunk>, list: seq<Coord>, coord: Coord, c: Chunk, listed: bool)
    requires ListCoversVisible(chunks, list) && coord in chunks
    requires c.visible ==> listed
    ensures ListCoversVisible(chunks[coord := c], list + (if listed then [coord] else []))
  {
    var list2 := list + (if listed then [coord] else []);
    forall d | d in chunks && chunks[coord := c][d].visible
      ensures d in list2
    {
      if d == coord {
        assert list2[|list2| - 1] == coord;
      } else {
        assert d in list;
        var i :| 0 <= i < |list| && list[i] == d;
        assert list2[i] == d;
      }
    }
  }

  lemma {:induction false} StoreLogSound(chunks: map<Coord, Chunk>, issued: seq<Request>, coord: Coord, c: Chunk, requests: seq<nat>)
    requires LogSound(chunks, issued) && coord in chunks
    requires AsksExactly(chunks[coord], c, requests)
    ensures LogSound(chunks[coord := c], issued + MeshRequests(coord, requests))
  {
    var chunks2 := chunks[coord := c];
    var issued2 := issued + MeshRequests(coord, requests);
    forall i, j | 0 <= i < j < |issued2|
      ensures issued2[i] != issued2[j]
    {
      if i < |issued| && j >= |issued| {
        var k := requests[j - |issued|];
        assert issued2[j] == MeshDataRequest(coord, k);
        assert k in requests;
        assert RequestRecorded(chunks, issued[i]);
      } else if i >= |issued| {
        assert requests[i - |issued|] != requests[j - |issued|];
      }
    }
    forall i | 0 <= i < |issued2|
      ensures RequestRecorded(chunks2, issued2[i])
    {
      if i < |issued| {
        assert issued2[i] == issued[i];
        assert RequestRecorded(chunks, issued[i]);
      } else {
        assert requests[i - |issued|] in requests;
      }
    }
  }

  lemma {:induction false} StoreLogComplete(chunks: map<Coord, Chunk>, issued: seq<Request>, coord: Coord, c: Chunk, requests: seq<nat>)
    requires LogComplete(chunks, issued) && coord in chunks
    requires AsksExactly(chunks[coord], c, requests)
    ensures LogComplete(chunks[coord := c], issued + MeshRequests(coord, requests))
  {
    var chunks2 := chunks[coord := c];
    var issued2 := issued + MeshRequests(coord, requests);
    forall d | d in chunks2
      ensures MapDataRequest(d) in issued2
    {
      assert MapDataRequest(d) in issued;
      var i :| 0 <= i < |issued| && issued[i] == MapDataRequest(d);
      assert issued2[i] == issued[i];
    }
    forall d, k | d in chunks2 && 0 <= k < |chunks2[d].lodMeshes| && chunks2[d].lodMeshes[k].hasRequestedMesh
      ensures MeshDataRequest(d, k) in issued2
    {
      if d == coord && !chunks[coord].lodMeshes[k].hasRequestedMesh {
        assert k in requests;
        var i :| 0 <= i < |requests| && requests[i] == k;
        assert issued2[|issued| + i] == MeshDataRequest(d, k);
      } else {
        assert MeshDataRequest(d, k) in issued;
        var i :| 0 <= i < |issued| && issued[i] == MeshDataRequest(d, k);
        assert issued2[i] == issued[i];
      }
    }
  }

  lemma {:induction false} AddChunkLog(chunks: map<Coord, Chunk>, issued: seq<Request>, coord: Coord, c: Chunk)
    requires LogSound(chunks, issued) && LogComplete(chunks, issued) && coord !in chunks
    requires forall k :: 0 <= k < |c.lodMeshes| ==> !c.lodMeshes[k].hasRequestedMesh
    ensures LogSound(chunks[coord := c], issued + [MapDataRequest(coord)])
    ensures LogComplete(chunks[coord := c], issued + [MapDataRequest(coord)])
  {
    var chunks2 := chunks[coord := c];
    var issued2 := issued + [MapDataRequest(coord)];
    forall i | 0 <= i < |issued|
      ensures issued[i] != MapDataRequest(coord) && RequestRecorded(chunks2, issued2[i])
    {
      assert RequestRecorded(chunks, issued[i]);
      assert issued2[i] == issued[i];
    }
    assert RequestRecorded(chunks2, issued2[|issued|]);
    forall d | d in chunks2
      ensures MapDataRequest(d) in issued2
    {
      if d != coord {
        assert MapDataRequest(d) in issued;
        var i :| 0 <= i < |issued| && issued[i] == MapDataRequest(d);
        assert issued2[i] == issued[i];
      } else {
        assert issued2[|issued|] == MapDataRequest(d);
      }
    }
    forall d, k | d in chunks2 && 0 <= k < |chunks2[d].lodMeshes| && chunks2[d].lodMeshes[k].hasRequestedMesh
      ensures MeshDataRequest(d, k) in issued2
    {
      assert MeshDataRequest(d, k) in issued;
      var i :| 0 <= i < |issued| && issued[i] == MeshDataRequest(d, k);
      assert issued2[i] == issued[i];
    }
  }

  /** `r` is `t` after visiting `coord`: only that key is touched, the visible
      list can only gain it, and the log only grows. */
  ghost predicate VisitedOnly(t: Terrain, r: Terrain, coord: Coord) {
    && ColliderSlot(t.table).Some?
    && r == t.(chunks := r.chunks, issued := r.issued, previouslyVisible := r.previouslyVisible)
    && coord in r.chunks && r.chunks.Keys == t.chunks.Keys + {coord}
    && (forall c :: c in t.chunks && c != coord ==> r.chunks[c] == t.chunks[c])
    && (coord !in t.chunks ==> r.chunks[coord] == NewChunk(t.table))
    // Only a chunk that already existed can list itself, and only once shown; a new one starts hidden.
    && (r.previouslyVisible == t.previouslyVisible ||
        (coord in t.chunks && r.chunks[coord].visible && r.previouslyVisible == t.previouslyVisible + [coord]))
    && |t.issued| <= |r.issued| && r.issued[..|t.issued|] == t.issued
  }

  /** Store the result of a chunk update for `coord`: the new chunk, its mesh
      requests appended to the log, and the chunk appended to the visible
      list when it listed itself. */
  function ApplyStep(t: Terrain, coord: Coord, s: ChunkStep): (r: Terrain)
    requires Valid(t) && coord in t.chunks
    requires ChunkValid(s.chunk, t.table)
    requires AsksExactly(t.chunks[coord], s.chunk, s.requests)
    requires s.chunk.visible ==> s.listed
    ensures Valid(r)
    ensures r == t.(chunks := t.chunks[coord := s.chunk],
                    issued := t.issued + MeshRequests(coord, s.requests),
                    previouslyVisible := t.previouslyVisible + (if s.listed then [coord] else []))
  {
    StoreChunksValid(t.chunks, t.table, coord, s.chunk);
    StoreListed(t.chunks, t.previouslyVisible, coord, s.chunk, s.listed);
    StoreLogSound(t.chunks, t.issued, coord, s.chunk, s.requests);
    StoreLogComplete(t.chunks, t.issued, coord, s.chunk, s.requests);
    t.(chunks := t.chunks[coord := s.chunk],
       issued := t.issued + MeshRequests(coord, s.requests),
       previouslyVisible := t.previouslyVisible + (if s.listed then [coord] else []))
  }

  /** Create the chunk for a coordinate not yet in the map: a fresh hidden
      chunk and exactly one map-data request for it. */
  function CreateChunk(t: Terrain, coord: Coord): (r: Terrain)
    requires Valid(t) && coord !in t.chunks
    ensures Valid(r)
    ensures r == t.(chunks := t.chunks[coord := NewChunk(t.table)], issued := t.issued + [MapDataRequest(coord)])
  {
    StoreChunksValid(t.chunks, t.table, coord, NewChunk(t.table));
    AddChunkLog(t.chunks, t.issued, coord, NewChunk(t.table));
    t.(chunks := t.chunks[coord := NewChunk(t.table)], issued := t.issued + [MapDataRequest(coord)])
  }

  /** Storing one chunk, appending to the log and possibly listing the
      coordinate is a visit of that coordinate. */
  lemma StoreVisits(t: Terrain, coord: Coord, c: Chunk, extra: seq<Request>, listed: bool)
    requires ColliderSlot(t.table).Some?
    requires coord !in t.chunks ==> c == NewChunk(t.table) && !listed
    requires listed ==> c.visible
    ensures VisitedOnly(t, t.(chunks := t.chunks[coord := c], issued := t.issued + extra,
                               previouslyVisible := t.previouslyVisible + (if listed then [coord] else [])), coord)
  {
    assert (t.issued + extra)[..|t.issued|] == t.issued;
  }

  /** One coordinate of the window walk in `UpdateVisibleChunks`: update the
      chunk if the map has it, create it (and ask for its map data) otherwise. */
  function VisitCoord(t: Terrain, coord: Coord, distance: real): (r: Terrain)
    requires Valid(t)
    ensures Valid(r)
    ensures VisitedOnly(t, r, coord)
    ensures coord !in t.chunks ==> r.issued == t.issued + [MapDataRequest(coord)]
    ensures coord in t.chunks ==> r.chunks[coord] == UpdateTerrainChunk(t.table, t.maxViewDistance, t.chunks[coord], distance).chunk
  {
    if coord in t.chunks then
      var s := UpdateTerrainChunk(t.table, t.maxViewDistance, t.chunks[coord], distance);
      StoreVisits(t, coord, s.chunk, MeshRequests(coord, s.requests), s.listed);
      ApplyStep(t, coord, s)
    else
      StoreVisits(t, coord, NewChunk(t.table), [MapDataRequest(coord)], false);
      CreateChunk(t, coord)
  }

  // ---------------------------------------------------------------------------
  // UpdateVisibleChunks

  /** The first loop of `UpdateVisibleChunks`: hide every chunk on the list. */
  method HideListed(chunks: map<Coord, Chunk>, list: seq<Coord>) returns (hidden: map<Coord, Chunk>)
    requires forall i :: 0 <= i < |list| ==> list[i] in chunks
    ensures hidden.Keys == chunks.Keys
    ensures forall c :: c in chunks ==> hidden[c] == chunks[c].(visible := chunks[c].visible && c !in list)
  {
    hidden := chunks;
    var i := 0;
    while i < |list|
      invariant 0 <= i <= |list|
      invariant hidden.Keys == chunks.Keys
      invariant forall c :: c in chunks ==> hidden[c] == chunks[c].(visible := chunks[c].visible && c !in list[..i])
    {
      hidden := hidden[list[i] := hidden[list[i]].(visible := false)];
      assert list[..i + 1] == list[..i] + [list[i]];
      i := i + 1;
    }
    assert list[..i] == list;
  }

  /** Hiding the listed chunks and clearing the list keeps the invariant: since
      every shown chunk was listed, every chunk is now hidden, and the request
      state is untouched. */
  lemma {:induction false} HiddenValid(t: Terrain, hidden: map<Coord, Chunk>)
    requires Valid(t)
    requires hidden.Keys == t.chunks.Keys
    requires forall c :: c in t.chunks ==>
      hidden[c] == t.chunks[c].(visible := t.chunks[c].visible && c !in t.previouslyVisible)
    ensures forall c :: c in t.chunks ==> hidden[c] == t.chunks[c].(visible := false)
    ensures Valid(t.(chunks := hidden, previouslyVisible := []))
  {
    forall c | c in hidden
      ensures ChunkValid(hidden[c], t.table) && hidden[c] == t.chunks[c].(visible := false)
    {
      assert ChunkValid(t.chunks[c], t.table);
    }
    forall i | 0 <= i < |t.issued|
      ensures RequestRecorded(hidden, t.issued[i])
    {
      assert RequestRecorded(t.chunks, t.issued[i]);
    }
  }

  /** The state right after hiding compared with the state before: every
      chunk hidden and otherwise unchanged, the list empty. */
  ghost predicate HiddenFrom(t: Terrain, h: Terrain) {
    && Valid(t) && Valid(h)
    && h == t.(chunks := h.chunks, previouslyVisible := [])
    && h.chunks.Keys == t.chunks.Keys
    && (forall c :: c in t.chunks ==> h.chunks[c] == t.chunks[c].(visible := false))
  }

  /** The first loop of `UpdateVisibleChunks` followed by `Clear()`: every
      chunk is hidden and the list is empty. */
  method HidePreviouslyVisible(t: Terrain) returns (r: Terrain)
    requires Valid(t)
    ensures HiddenFrom(t, r)
  {
    var hidden := HideListed(t.chunks, t.previouslyVisible);
    HiddenValid(t, hidden);
    r := t.(chunks := hidden, previouslyVisible := []);
  }

  /** Row-major order on chunk coordinates: by y, then by x. */
  predicate RowMajorBefore(a: Coord, b: Coord) {
    a.y < b.y || (a.y == b.y && a.x < b.x)
  }

  /** The window coordinates the nested loops visit before offset (dx, dy). */
  predicate WindowPrefix(center: Coord, k: int, dx: int, dy: int, c: Coord) {
    && InWindow(center, k, c)
    && (c.y - center.y < dy || (c.y - center.y == dy && c.x - center.x < dx))
  }

  /** The coordinates of the window around `center`, in the order the two
      nested loops of `UpdateVisibleChunks` visit them: the y offset runs
      from -k to k, and for each, the x offset from -k to k. The result holds
      exactly the window, strictly increasing in row-major order, which pins
      it down to that one sequence. */
  method WindowOrder(center: Coord, k: int) returns (order: seq<Coord>)
    ensures forall c :: c in order <==> InWindow(center, k, c)
    ensures forall i, j :: 0 <= i < j < |order| ==> RowMajorBefore(order[i], order[j])
  {
    order := [];
    var dy := -k;
    while dy <= k
      invariant -k <= dy
      invariant forall c :: c in order <==> InWindow(center, k, c) && c.y - center.y < dy
      invariant forall i :: 0 <= i < |order| ==> order[i].y < center.y + dy
      invariant forall i, j :: 0 <= i < j < |order| ==> RowMajorBefore(order[i], order[j])
    {
      var dx := -k;
      while dx <= k
        invariant -k <= dx
        invariant forall c :: c in order <==> WindowPrefix(center, k, dx, dy, c)
        invariant forall i :: 0 <= i < |order| ==> RowMajorBefore(order[i], Coord(center.x + dx, center.y + dy))
        invariant forall i, j :: 0 <= i < j < |order| ==> RowMajorBefore(order[i], order[j])
      {
        order := order + [Coord(center.x + dx, center.y + dy)];
        dx := dx + 1;
      }
      dy := dy + 1;
    }
  }

  /** The coordinates of a sequence, as a set. */
  function Elems(cs: seq<Coord>): set<Coord> {
    set c | c in cs
  }

  lemma ElemsStep(seen: set<Coord>, todo: seq<Coord>)
    ensures todo == [] ==> seen + Elems(todo) == seen
    ensures todo != [] ==> (seen + {todo[0]}) + Elems(todo[1..]) == seen + Elems(todo)
  {
    if todo != [] {
      assert todo == [todo[0]] + todo[1..];
    }
  }

  /** What the window walk has established once the coordinates in `seen`
      have been visited, stated against the map and log right after hiding
      (`hChunks`, `hIssued`); `newChunk` is the chunk a new key gets. */
  ghost predicate WalkFacts(hChunks: map<Coord, Chunk>, hIssued: seq<Request>, newChunk: Chunk,
                            chunks: map<Coord, Chunk>, list: seq<Coord>, issued: seq<Request>,
                            seen: set<Coord>) {
    && hChunks.Keys <= chunks.Keys
    && |hIssued| <= |issued| && issued[..|hIssued|] == hIssued
    && (forall c :: c in seen ==> c in chunks)
    && (forall c :: c in chunks && c !in seen ==> c in hChunks && chunks[c] == hChunks[c])
    && (forall c :: c in chunks && c !in hChunks ==> chunks[c] == newChunk)
    && (forall i :: 0 <= i < |list| ==> list[i] in seen && list[i] in hChunks && chunks[list[i]].visible)
  }

  /** The walk's invariant on the whole controller. `h` is the state right
      after hiding. */
  ghost predicate WalkInvariant(h: Terrain, r: Terrain, seen: set<Coord>) {
    && Valid(r)
    && r == h.(chunks := r.chunks, issued := r.issued, previouslyVisible := r.previouslyVisible)
    && WalkFacts(h.chunks, h.issued, NewChunk(h.table), r.chunks, r.previouslyVisible, r.issued, seen)
  }

  /** Right after hiding, nothing has been visited. */
  lemma WalkStart(h: Terrain)
    requires Valid(h) && h.previouslyVisible == []
    ensures WalkInvariant(h, h, {})
  {
    assert h.issued[..|h.issued|] == h.issued;
  }

  /** Visiting one more coordinate adds it to what has been seen. */
  lemma WalkStep(hChunks: map<Coord, Chunk>, hIssued: seq<Request>, newChunk: Chunk,
                    r: Terrain, r2: Terrain, seen: set<Coord>, coord: Coord)
    requires WalkFacts(hChunks, hIssued, newChunk, r.chunks, r.previouslyVisible, r.issued, seen)
    requires VisitedOnly(r, r2, coord)
    requires newChunk == NewChunk(r.table)
    requires coord !in seen
    ensures WalkFacts(hChunks, hIssued, newChunk, r2.chunks, r2.previouslyVisible, r2.issued, seen + {coord})
  {
    assert r2.issued[..|hIssued|] == r2.issued[..|r.issued|][..|hIssued|];
    forall c | c in r2.chunks && c !in hChunks
      ensures r2.chunks[c] == newChunk
    {
      if c == coord {
        assert coord !in r.chunks;
      }
    }
    forall i | 0 <= i < |r2.previouslyVisible|
      ensures r2.previouslyVisible[i] in seen + {coord}
    {
      if i < |r.previouslyVisible| {
        assert r2.previouslyVisible[i] == r.previouslyVisible[i];
      }
    }
  }

  /** Every visited coordinate that was a key after hiding holds what
      `UpdateTerrainChunk` made of its hidden chunk at its distance. */
  ghost predicate UpdatedIn(h: Terrain, r: Terrain, seen: set<Coord>, distance: Coord -> real)
    requires ChunksValid(h.chunks, h.table)
  {
    forall c :: c in seen && c in h.chunks ==>
      c in r.chunks && r.chunks[c] == UpdateTerrainChunk(h.table, h.maxViewDistance, h.chunks[c], distance(c)).chunk
  }

  /** Visiting `coord` updates its chunk, if it had one, and no other. */
  lemma UpdatedStep(h: Terrain, t: Terrain, t1: Terrain, seen: set<Coord>, coord: Coord, distance: Coord -> real)
    requires ChunksValid(h.chunks, h.table) && UpdatedIn(h, t, seen, distance)
    requires t.table == h.table && t.maxViewDistance == h.maxViewDistance
    requires forall c :: c in t.chunks && c !in seen ==> c in h.chunks && t.chunks[c] == h.chunks[c]
    requires h.chunks.Keys <= t.chunks.Keys
    requires coord !in seen
    requires t.chunks.Keys <= t1.chunks.Keys
    requires forall c :: c in t.chunks && c != coord ==> t1.chunks[c] == t.chunks[c]
    requires coord in t.chunks ==>
      t1.chunks[coord] == UpdateTerrainChunk(t.table, t.maxViewDistance, t.chunks[coord], distance(coord)).chunk
    ensures UpdatedIn(h, t1, seen + {coord}, distance)
  {
    forall c | c in seen + {coord} && c in h.chunks
      ensures c in t1.chunks
      ensures t1.chunks[c] == UpdateTerrainChunk(h.table, h.maxViewDistance, h.chunks[c], distance(c)).chunk
    {
      if c == coord {
        assert c in t.chunks && t.chunks[c] == h.chunks[c];
      }
    }
  }

  /** Coordinates still to visit: none twice, none visited already. */
  predicate Unvisited(todo: seq<Coord>, seen: set<Coord>) {
    NoDuplicates(todo) && forall i :: 0 <= i < |todo| ==> todo[i] !in seen
  }

  /** Visiting the head of the coordinates still to visit keeps the walk's
      invariant and leaves the tail unvisited. */
  lemma VisitHead(h: Terrain, t: Terrain, t1: Terrain, todo: seq<Coord>, seen: set<Coord>)
    requires WalkInvariant(h, t, seen) && Unvisited(todo, seen) && todo != []
    requires Valid(t1) && VisitedOnly(t, t1, todo[0])
    ensures WalkInvariant(h, t1, seen + {todo[0]})
    ensures Unvisited(todo[1..], seen + {todo[0]})
    ensures (seen + {todo[0]}) + Elems(todo[1..]) == seen + Elems(todo)
  {
    WalkStep(h.chunks, h.issued, NewChunk(h.table), t, t1, seen, todo[0]);
    ElemsStep(seen, todo);
    forall i | 0 <= i < |todo[1..]|
      ensures todo[1..][i] !in seen + {todo[0]}
    {
      assert todo[1..][i] == todo[i + 1];
    }
  }

  /** The nested loops of `UpdateVisibleChunks` over the coordinates still
      to visit, in order; `seen` holds those already visited. */
  method VisitAll(h: Terrain, t: Terrain, todo: seq<Coord>, ghost seen: set<Coord>, distance: Coord -> real) returns (r: Terrain)
    requires Valid(h) && WalkInvariant(h, t, seen) && UpdatedIn(h, t, seen, distance) && Unvisited(todo, seen)
    ensures WalkInvariant(h, r, seen + Elems(todo)) && UpdatedIn(h, r, seen + Elems(todo), distance)
    decreases |todo|
  {
    if todo == [] {
      ElemsStep(seen, todo);
      r := t;
    } else {
      var t1 := VisitCoord(t, todo[0], distance(todo[0]));
      VisitHead(h, t, t1, todo, seen);
      UpdatedStep(h, t, t1, seen, todo[0], distance);
      r := VisitAll(h, t1, todo[1..], seen + {todo[0]}, distance);
    }
  }

  /** What `UpdateVisibleChunks` around `center` leaves behind, compared with
      the state `t` it started from. */
  ghost predicate VisibleChunksUpdated(t: Terrain, center: Coord, distance: Coord -> real, r: Terrain)
    requires Valid(t)
  {
    && Valid(r)
    && r == t.(chunks := r.chunks, issued := r.issued, previouslyVisible := r.previouslyVisible)
    // Every coordinate of the window is now a key, and no key was removed.
    && (forall c :: InWindow(center, t.visibleChunkCount, c) ==> c in r.chunks)
    && t.chunks.Keys <= r.chunks.Keys
    // Every chunk of the window that already existed holds what its own update made of it.
    && (forall c :: c in t.chunks && InWindow(center, t.visibleChunkCount, c) ==>
          r.chunks[c] == UpdateTerrainChunk(t.table, t.maxViewDistance, t.chunks[c].(visible := false), distance(c)).chunk)
    // New keys are window coordinates holding fresh hidden chunks, each with its map-data request.
    && (forall c :: c in r.chunks && c !in t.chunks ==>
          InWindow(center, t.visibleChunkCount, c) && r.chunks[c] == NewChunk(t.table) && MapDataRequest(c) in r.issued)
    // Chunks outside the window are hidden and otherwise untouched.
    && (forall c :: c in t.chunks && !InWindow(center, t.visibleChunkCount, c) ==>
          r.chunks[c] == t.chunks[c].(visible := false))
    // Only shown window chunks that already existed are listed; only window chunks can be shown.
    && (forall i :: 0 <= i < |r.previouslyVisible| ==>
          InWindow(center, t.visibleChunkCount, r.previouslyVisible[i]) && r.previouslyVisible[i] in t.chunks
          && r.chunks[r.previouslyVisible[i]].visible)
    && (forall c :: c in r.chunks && r.chunks[c].visible ==> InWindow(center, t.visibleChunkCount, c))
    // The request log only grows.
    && |t.issued| <= |r.issued| && r.issued[..|t.issued|] == t.issued
  }

  /** Once the walk has visited exactly the window, the recompute's promises hold. */
  lemma {:induction false} WalkComplete(t: Terrain, h: Terrain, r: Terrain, center: Coord, seen: set<Coord>, distance: Coord -> real)
    requires HiddenFrom(t, h)
    requires WalkInvariant(h, r, seen) && UpdatedIn(h, r, seen, distance)
    requires forall c :: c in seen <==> InWindow(center, h.visibleChunkCount, c)
    ensures VisibleChunksUpdated(t, center, distance, r)
  {
    forall c | c in r.chunks && r.chunks[c].visible
      ensures InWindow(center, t.visibleChunkCount, c)
    {
      assert c in r.previouslyVisible;
    }
  }

  /** `EndlessTerrain.UpdateVisibleChunks` around the viewer's chunk
      coordinate `center`: hide the chunks shown so far, then visit the
      (2k+1) x (2k+1) window row by row, updating known chunks and creating
      the missing ones. */
  method UpdateVisibleChunks(t: Terrain, center: Coord, distance: Coord -> real) returns (r: Terrain)
    requires Valid(t)
    ensures VisibleChunksUpdated(t, center, distance, r)
  {
    var h := HidePreviouslyVisible(t);
    r := WalkWindow(t, h, center, distance);
  }

  /** The second loop of `UpdateVisibleChunks`, run on the hidden state `h`. */
  method WalkWindow(t: Terrain, h: Terrain, center: Coord, distance: Coord -> real) returns (r: Terrain)
    requires HiddenFrom(t, h)
    ensures VisibleChunksUpdated(t, center, distance, r)
  {
    WalkStart(h);
    var order := WindowOrder(center, h.visibleChunkCount);
    r := VisitAll(h, h, order, {}, distance);
    WalkComplete(t, h, r, center, Elems(order), distance);
  }

  // ---------------------------------------------------------------------------
  // Start, Update and the asynchronous replies

  /** `EndlessTerrain.Start`: the maximum view distance is the last table
      entry's threshold, and a first recompute runs around chunk (0, 0) (the
      static viewer position is still zero). */
  method Start(table: seq<LODData>, visibleChunkCount: int, distance: Coord -> real) returns (r: Terrain)
    requires ColliderSlot(table).Some?
    ensures Valid(r)
    ensures r.table == table && r.visibleChunkCount == visibleChunkCount
    ensures Some(r.maxViewDistance) == MaxViewDistance(table)
    ensures forall c :: InWindow(Coord(0, 0), visibleChunkCount, c) <==> c in r.chunks
    ensures forall c :: c in r.chunks ==> r.chunks[c] == NewChunk(table)
    ensures |r.issued| == |r.chunks|
    // Both static viewer positions keep their zero default, and no chunk is listed yet.
    ensures r.viewerPosition == r.previousViewerPosition == Vector2(0.0, 0.0)
    ensures r.previouslyVisible == []
  {
    var origin := Vector2(0.0, 0.0);
    var t0 := Terrain(table, table[|table| - 1].visibleDistanceThreshold, visibleChunkCount,
                      map[], [], origin, origin, []);
    r := UpdateVisibleChunks(t0, Coord(0, 0), distance);
    FirstListed(r.previouslyVisible, t0.chunks.Keys);
    assert forall i :: 0 <= i < |r.issued| ==> r.issued[i].MapDataRequest? by {
      forall i | 0 <= i < |r.issued|
        ensures r.issued[i].MapDataRequest?
      {
        assert RequestRecorded(r.chunks, r.issued[i]);
        assert r.chunks[r.issued[i].coord] == NewChunk(table);
      }
    }
    IssuedAreTheMapRequests(r);
  }

  /** A list whose entries all lie in `keys` starts with a key, if it starts at all. */
  lemma FirstListed(list: seq<Coord>, keys: set<Coord>)
    requires forall i :: 0 <= i < |list| ==> list[i] in keys
    ensures list != [] ==> list[0] in keys
  {
  }

  /** When the log holds only map-data requests it has exactly one entry per chunk. */
  lemma IssuedAreTheMapRequests(t: Terrain)
    requires Valid(t)
    requires forall i :: 0 <= i < |t.issued| ==> t.issued[i].MapDataRequest?
    ensures |t.issued| == |t.chunks|
  {
    var coords := set i | 0 <= i < |t.issued| :: t.issued[i].coord;
    assert coords == t.chunks.Keys by {
      forall c | c in t.chunks
        ensures c in coords
      {
        assert MapDataRequest(c) in t.issued;
      }
      forall c | c in coords
        ensures c in t.chunks
      {
        var i :| 0 <= i < |t.issued| && t.issued[i].coord == c;
        assert RequestRecorded(t.chunks, t.issued[i]);
      }
    }
    DistinctCoords(t.issued, 0);
  }

  /** A log of distinct map-data requests names as many coordinates as it has entries. */
  lemma {:induction false} DistinctCoords(issued: seq<Request>, from: nat)
    requires from <= |issued|
    decreases |issued| - from
    requires NoDuplicates(issued)
    requires forall i :: 0 <= i < |issued| ==> issued[i].MapDataRequest?
    ensures |set i | from <= i < |issued| :: issued[i].coord| == |issued| - from
  {
    var s := set i | from <= i < |issued| :: issued[i].coord;
    if from < |issued| {
      DistinctCoords(issued, from + 1);
      var rest := set i | from + 1 <= i < |issued| :: issued[i].coord;
      assert s == rest + {issued[from].coord};
      forall i | from + 1 <= i < |issued|
        ensures issued[i].coord != issued[from].coord
      {
        assert issued[i] != issued[from];
      }
      assert issued[from].coord !in rest;
    } else {
      assert s == {};
    }
  }

  /** `(a - b).sqrMagnitude`. */
  function SqrDistance(a: Vector2, b: Vector2): real {
    (a.x - b.x) * (a.x - b.x) + (a.y - b.y) * (a.y - b.y)
  }

  /** `EndlessTerrain.Update` for a viewer at world position (worldX, worldZ)
      whose rounded chunk coordinate is `center`: the viewer position is
      always refreshed, but the visible set is recomputed, and the reference
      position moved, only after the viewer has moved more than 25 units. */
  method Update(t: Terrain, worldX: real, worldZ: real, center: Coord, distance: Coord -> real) returns (r: Terrain)
    requires Valid(t)
    ensures Valid(r)
    ensures r.viewerPosition == Vector2(worldX / Scale, worldZ / Scale)
    ensures SqrDistance(t.previousViewerPosition, r.viewerPosition) > SqrMoveThreshold ==>
      && r.previousViewerPosition == r.viewerPosition
      && VisibleChunksUpdated(t.(viewerPosition := r.viewerPosition, previousViewerPosition := r.viewerPosition),
                              center, distance, r)
    ensures SqrDistance(t.previousViewerPosition, r.viewerPosition) <= SqrMoveThreshold ==>
      r == t.(viewerPosition := r.viewerPosition)
    ensures t.chunks.Keys <= r.chunks.Keys
  {
    var viewer := Vector2(worldX / Scale, worldZ / Scale);
    r := t.(viewerPosition := viewer);
    if SqrDistance(t.previousViewerPosition, viewer) > SqrMoveThreshold {
      r := r.(previousViewerPosition := viewer);
      r := UpdateVisibleChunks(r, center, distance);
    }
  }

  /** Storing one chunk and appending to the log leave the other chunks,
      the key set and the logged prefix alone. */
  lemma StoreFrame(chunks: map<Coord, Chunk>, issued: seq<Request>, coord: Coord, c: Chunk, extra: seq<Request>)
    requires coord in chunks
    ensures chunks[coord := c].Keys == chunks.Keys
    ensures forall d :: d in chunks && d != coord ==> chunks[coord := c][d] == chunks[d]
    ensures |issued| <= |issued + extra| && (issued + extra)[..|issued|] == issued
  {
  }

  /** A map-data reply is pending for `coord`. */
  predicate MapReplyPending(t: Terrain, coord: Coord) {
    coord in t.chunks && !t.chunks[coord].mapDataReceived
  }

  /** A mesh reply is pending for slot `slot` of `coord`. */
  predicate MeshReplyPending(t: Terrain, coord: Coord, slot: nat) {
    && coord in t.chunks && slot < |t.chunks[coord].lodMeshes|
    && t.chunks[coord].lodMeshes[slot].hasRequestedMesh && !t.chunks[coord].lodMeshes[slot].hasMesh
  }

  /** The reply to a chunk's map-data request (`TerrainChunk.OnMapDataReceived`),
      drained on the owning thread. */
  function OnMapDataReceived(t: Terrain, coord: Coord, distance: real): (r: Terrain)
    requires Valid(t) && MapReplyPending(t, coord)
    ensures Valid(r)
    ensures r.chunks.Keys == t.chunks.Keys
    ensures r.chunks[coord].mapDataReceived
    ensures r.chunks[coord].visible <==> distance <= t.maxViewDistance
    ensures forall c :: c in t.chunks && c != coord ==> r.chunks[c] == t.chunks[c]
    // The chunk holds what its own callback made of it, and the requests that callback made are logged.
    ensures var s := ReceiveMapData(t.table, t.maxViewDistance, t.chunks[coord], distance);
      && r.chunks[coord] == s.chunk
      && r.issued == t.issued + MeshRequests(coord, s.requests)
      && r.previouslyVisible == t.previouslyVisible + (if s.listed then [coord] else [])
    ensures |t.issued| <= |r.issued| && r.issued[..|t.issued|] == t.issued
  {
    var c := t.chunks[coord];
    var s := ReceiveMapData(t.table, t.maxViewDistance, c, distance);
    StoreFrame(t.chunks, t.issued, coord, s.chunk, MeshRequests(coord, s.requests));
    ApplyStep(t, coord, s)
  }

  /** The reply to a chunk's mesh request for `slot`
      (`LODMesh.OnMeshDataReceived`, whose callback updates the chunk). */
  function OnMeshDataReceived(t: Terrain, coord: Coord, slot: nat, distance: real): (r: Terrain)
    requires Valid(t) && MeshReplyPending(t, coord, slot)
    ensures Valid(r)
    ensures r.chunks.Keys == t.chunks.Keys
    ensures slot < |r.chunks[coord].lodMeshes| && r.chunks[coord].lodMeshes[slot].hasMesh
    ensures r.chunks[coord].visible <==> distance <= t.maxViewDistance
    ensures forall c :: c in t.chunks && c != coord ==> r.chunks[c] == t.chunks[c]
    // The chunk holds what its own callback made of it, and the requests that callback made are logged.
    ensures var s := ReceiveMeshData(t.table, t.maxViewDistance, t.chunks[coord], slot, distance);
      && r.chunks[coord] == s.chunk
      && r.issued == t.issued + MeshRequests(coord, s.requests)
      && r.previouslyVisible == t.previouslyVisible + (if s.listed then [coord] else [])
    ensures |t.issued| <= |r.issued| && r.issued[..|t.issued|] == t.issued
  {
    var c := t.chunks[coord];
    var s := ReceiveMeshData(t.table, t.maxViewDistance, c, slot, distance);
    StoreFrame(t.chunks, t.issued, coord, s.chunk, MeshRequests(coord, s.requests));
    ApplyStep(t, coord, s)
  }

}

=== FILE: grid.dfy ===
/** Row-major index arithmetic shared by the mesh buffers and the colour map:
    grid point (x, y) of a grid `width` points wide lives at slot
    `y * width + x`. */
module GridIndex {

  /** The buffer slot of grid point (x, y) in a grid `width` points wide. */
  function Slot(width: int, x: int, y: int): int {
    y * width + x
  }

  /** The number of cells along an axis of `n` grid points. */
  function Cells(n: nat): nat {
    if n == 0 then 0 else n - 1
  }

  lemma MulLeftMonotone(a: int, b: int, c: nat)
    requires a <= b
    ensures a * c <= b * c
  {
    assert b * c - a * c == (b - a) * c;
  }

  lemma MulStep(a: int, b: int)
    ensures (a + 1) * b == a * b + b
  {
  }

  /** Row-major slots of an n x m grid stay inside a buffer of n * m entries. */
  lemma SlotInRange(n: int, m: int, x: int, y: int)
    requires 0 <= x < n && 0 <= y < m
    ensures 0 <= Slot(n, x, y) < m * n
  {
    MulLeftMonotone(0, y, n);
    MulLeftMonotone(y + 1, m, n);
    MulStep(y, n);
  }

  /** One past the end of row y is the start of row y + 1. */
  lemma NextRowSlot(n: int, y: int)
    ensures Slot(n, n, y) == Slot(n, 0, y + 1)
  {
    MulStep(y, n);
  }

  /** Row-major order: a point in an earlier row, or earlier in the same row,
      has a smaller slot. */
  lemma SlotOrder(n: int, x1: int, y1: int, x2: int, y2: int)
    requires 0 <= x1 < n && 0 <= x2 < n
    requires y1 < y2 || (y1 == y2 && x1 < x2)
    ensures Slot(n, x1, y1) < Slot(n, x2, y2)
  {
    if y1 < y2 {
      MulLeftMonotone(y1 + 1, y2, n);
      MulStep(y1, n);
    }
  }

  /** Two grid points with the same slot are the same point. */
  lemma SlotInjective(n: int, x1: int, y1: int, x2: int, y2: int)
    requires 0 <= x1 < n && 0 <= x2 < n
    requires Slot(n, x1, y1) == Slot(n, x2, y2)
    ensures x1 == x2 && y1 == y2
  {
    if y1 < y2 || (y1 == y2 && x1 < x2) {
      SlotOrder(n, x1, y1, x2, y2);
    } else if y2 < y1 || (y1 == y2 && x2 < x1) {
      SlotOrder(n, x2, y2, x1, y1);
    }
  }

  /** Every slot of an n x m buffer belongs to exactly one grid point: slot
      `k` is grid point (k % n, k / n), and no two points share a slot. */
  lemma SlotBijection(n: int, m: int, k: int)
    requires 0 < n && 0 <= k < n * m
    ensures 0 <= k / n < m && Slot(n, k % n, k / n) == k
    ensures forall x, y :: 0 <= x < n && 0 <= y < m && Slot(n, x, y) == k ==> x == k % n && y == k / n
  {
    var q, r := k / n, k % n;
    assert Slot(n, r, q) == k by {
      assert k == n * q + r;
      assert n * q == q * n;
    }
    if m <= q {
      MulLeftMonotone(m, q, n);
    }
    forall x, y | 0 <= x < n && 0 <= y < m && Slot(n, x, y) == k
      ensures x == r && y == q
    {
      SlotInjective(n, x, y, r, q);
    }
  }

}

=== FILE: lod.dfy ===
/** The level-of-detail table of `EndlessTerrain`: `LODData` entries,
    `TerrainChunk.GetLevelOfDetailIndex`, the collider entry the chunk
    constructor picks, and the `Start` rule that the last entry's threshold is
    the maximum view distance. */
module LevelOfDetail {
  import opened Wrappers

  /** `EndlessTerrain.LODData`. */
  datatype LODData = LODData(levelOfDetail: int, visibleDistanceThreshold: real, useForCollider: bool)

  /** The largest index `GetLevelOfDetailIndex` can return for a table. */
  function MaxIndex(table: seq<LODData>): nat {
    if |table| == 0 then 0 else |table| - 1
  }

  /** The loop of `GetLevelOfDetailIndex` resumed at `i`, every earlier
      threshold having been exceeded. */
  function ScanFrom(table: seq<LODData>, distance: real, i: nat): (r: nat)
    requires i <= MaxIndex(table)
    requires forall j :: 0 <= j < i ==> distance > table[j].visibleDistanceThreshold
    decreases |table| - i
    ensures i <= r <= MaxIndex(table)
    ensures forall j :: 0 <= j < r ==> distance > table[j].visibleDistanceThreshold
    ensures r < |table| - 1 ==> distance <= table[r].visibleDistanceThreshold
  {
    if i + 1 >= |table| then i
    else if distance > table[i].visibleDistanceThreshold then ScanFrom(table, distance, i + 1)
    else i
  }

  /** `GetLevelOfDetailIndex(distance)`: the number of leading thresholds among
      the first |table| - 1 that the distance strictly exceeds. The last
      threshold is never consulted. */
  function LevelOfDetailIndex(table: seq<LODData>, distance: real): (r: nat)
    ensures r <= MaxIndex(table)
    ensures forall j :: 0 <= j < r ==> distance > table[j].visibleDistanceThreshold
    ensures r < |table| - 1 ==> distance <= table[r].visibleDistanceThreshold
  {
    ScanFrom(table, distance, 0)
  }

  /** Within range of the first threshold the finest level is chosen. */
  lemma NearestIsFinest(table: seq<LODData>, distance: real)
    requires |table| > 0 && distance <= table[0].visibleDistanceThreshold
    ensures LevelOfDetailIndex(table, distance) == 0
  {
  }

  /** Further away never selects a finer level, whatever the table's order:
      a threshold the nearer distance exceeds is exceeded by the further one. */
  lemma LevelOfDetailIndexMonotone(table: seq<LODData>, d1: real, d2: real)
    requires d1 <= d2
    ensures LevelOfDetailIndex(table, d1) <= LevelOfDetailIndex(table, d2)
  {
  }

  /** The thresholds are in increasing order of distance. */
  predicate Ascending(table: seq<LODData>) {
    forall i, j :: 0 <= i < j < |table| ==> table[i].visibleDistanceThreshold <= table[j].visibleDistanceThreshold
  }

  /** With an ascending table the early exit loses nothing: the index counts
      every one of the first |table| - 1 thresholds below the distance, so it
      is the band (threshold[i-1], threshold[i]] the distance falls in. */
  lemma LevelOfDetailIndexBand(table: seq<LODData>, distance: real, i: nat)
    requires Ascending(table) && i < |table|
    ensures LevelOfDetailIndex(table, distance) == i <==>
      && (i == 0 || distance > table[i - 1].visibleDistanceThreshold)
      && (i == |table| - 1 || distance <= table[i].visibleDistanceThreshold)
  {
  }

  /** `Start`: the maximum view distance is the last entry's threshold; an
      empty table makes that line throw. */
  function MaxViewDistance(table: seq<LODData>): (r: Option<real>)
    ensures r.Some? <==> |table| > 0
    ensures r.Some? ==> r.value == table[|table| - 1].visibleDistanceThreshold
    ensures r.Some? && Ascending(table) ==> forall i :: 0 <= i < |table| ==> table[i].visibleDistanceThreshold <= r.value
  {
    if |table| == 0 then None else Some(table[|table| - 1].visibleDistanceThreshold)
  }

  /** Within the maximum view distance, the selected level's threshold
      covers the distance: a visible chunk never gets a level whose range it
      lies beyond. */
  lemma VisibleLevelCovers(table: seq<LODData>, distance: real)
    requires |table| > 0
    requires distance <= table[|table| - 1].visibleDistanceThreshold
    ensures var r := LevelOfDetailIndex(table, distance);
      distance <= table[r].visibleDistanceThreshold
  {
  }

  /** The collider entry the chunk constructor's loop settles on: it
      overwrites its pick at every flagged entry, so the last one wins. */
  function ColliderSlot(table: seq<LODData>): (r: Option<nat>)
    decreases |table|
    ensures r.Some? ==>
      && r.value < |table|
      && table[r.value].useForCollider
      && (forall j :: r.value < j < |table| ==> !table[j].useForCollider)
    ensures r.None? <==> forall j :: 0 <= j < |table| ==> !table[j].useForCollider
  {
    if |table| == 0 then None
    else if table[|table| - 1].useForCollider then Some(|table| - 1)
    else ColliderSlot(table[..|table| - 1])
  }

}

=== FILE: mesh.dfy ===
/** `MeshGenerator.GenerateTerrainMeshData` and the `MeshData` buffers it
    fills: a width x height height grid becomes one vertex and one UV per
    grid point (row-major, slot `y * width + x`) and two triangles per grid
    cell that has a right and a lower neighbour. */
module MeshGeneration {
  import opened Wrappers
  import opened GridIndex
  import opened Vectors

  /** The three buffers of `MeshData` and its private `_triangleIndex` cursor. */
  datatype MeshData = MeshData(
    vertices: seq<Vector3>,
    triangles: seq<int>,
    uvMaps: seq<Vector2>,
    triangleIndex: int)

  // ---------------------------------------------------------------------------
  // The MeshData constructor and AddTriangle

  /** `new MeshData(meshWidth, meshHeight)`: zero-filled buffers of
      meshWidth * meshHeight vertices and UVs and (meshWidth - 1) *
      (meshHeight - 1) * 6 triangle indices, cursor at 0. A negative array
      size makes the C# constructor throw; that is `None`. */
  function NewMeshData(meshWidth: int, meshHeight: int): (r: Option<MeshData>)
    ensures r.Some? <==> meshWidth * meshHeight >= 0 && (meshWidth - 1) * (meshHeight - 1) * 6 >= 0
    ensures r.Some? ==>
      && |r.value.vertices| == |r.value.uvMaps| == meshWidth * meshHeight
      && |r.value.triangles| == (meshWidth - 1) * (meshHeight - 1) * 6
      && r.value.triangleIndex == 0
      && (forall i :: 0 <= i < |r.value.vertices| ==> r.value.vertices[i] == ZeroVector3)
      && (forall i :: 0 <= i < |r.value.uvMaps| ==> r.value.uvMaps[i] == ZeroVector2)
      && (forall i :: 0 <= i < |r.value.triangles| ==> r.value.triangles[i] == 0)
  {
    var vertexCount := meshWidth * meshHeight;
    var indexCount := (meshWidth - 1) * (meshHeight - 1) * 6;
    if vertexCount < 0 || indexCount < 0 then None
    else Some(MeshData(seq(vertexCount, _ => ZeroVector3), seq(indexCount, _ => 0),
                       seq(vertexCount, _ => ZeroVector2), 0))
  }

  /** `MeshData.AddTriangle(a, b, c)`: writes a, b, c at the cursor and
      advances it by three. Writing past the end of the triangle buffer throws
      in C#; that is `None`. */
  function AddTriangle(m: MeshData, a: int, b: int, c: int): (r: Option<MeshData>)
    requires m.triangleIndex >= 0
    ensures r.Some? <==> m.triangleIndex + 3 <= |m.triangles|
    ensures r.Some? ==>
      var i := m.triangleIndex;
      && r.value.triangleIndex == i + 3
      && |r.value.triangles| == |m.triangles|
      && r.value.triangles[i..i + 3] == [a, b, c]
      && r.value.triangles[..i + 3] == m.triangles[..i] + [a, b, c]
      && (forall j :: 0 <= j < |m.triangles| && !(i <= j < i + 3) ==> r.value.triangles[j] == m.triangles[j])
      && r.value.vertices == m.vertices
      && r.value.uvMaps == m.uvMaps
  {
    var i := m.triangleIndex;
    if i + 3 <= |m.triangles| then
      var t := m.triangles[i := a][i + 1 := b][i + 2 := c];
      assert t[..i + 3] == m.triangles[..i] + [a, b, c];
      Some(m.(triangles := t, triangleIndex := i + 3))
    else
      None
  }

  // ---------------------------------------------------------------------------
  // The reference tessellation

  /** The two triangles of the cell whose upper-left grid point is slot `v`,
      in a grid `width` points wide: (v, v+w+1, v+w) and (v+w+1, v, v+1). */
  function CellTriangles(width: int, v: int): seq<int> {
    [v, v + width + 1, v + width, v + width + 1, v, v + 1]
  }

  /** The triangles of the first `n` cells of row `y`, left to right. */
  function RowTriangles(width: nat, y: nat, n: nat): seq<int>
    decreases n
  {
    if n == 0 then [] else RowTriangles(width, y, n - 1) + CellTriangles(width, Slot(width, n - 1, y))
  }

  /** The triangles of the first `rows` rows of cells, top to bottom. */
  function GridTriangles(width: nat, rows: nat): seq<int>
    decreases rows
  {
    if rows == 0 then [] else GridTriangles(width, rows - 1) + RowTriangles(width, rows - 1, Cells(width))
  }

  lemma {:induction false} RowTrianglesLength(width: nat, y: nat, n: nat)
    ensures |RowTriangles(width, y, n)| == 6 * n
  {
    if n > 0 {
      RowTrianglesLength(width, y, n - 1);
    }
  }

  /** Six indices per cell: the triangle list of `rows` full rows has
      6 * rows * (width - 1) entries. */
  lemma {:induction false} GridTrianglesLength(width: nat, rows: nat)
    ensures |GridTriangles(width, rows)| == 6 * (rows * Cells(width))
  {
    if rows > 0 {
      var cw := Cells(width);
      GridTrianglesLength(width, rows - 1);
      RowTrianglesLength(width, rows - 1, cw);
      MulStep(rows - 1, cw);
    }
  }

  /** Cell x of a row sits at entries 6x .. 6x+6 of the row's list. */
  lemma {:induction false} RowTrianglesCell(width: nat, y: nat, n: nat, x: nat)
    requires x < n
    ensures 6 * x + 6 <= |RowTriangles(width, y, n)|
    ensures RowTriangles(width, y, n)[6 * x .. 6 * x + 6] == CellTriangles(width, Slot(width, x, y))
  {
    RowTrianglesLength(width, y, n);
    RowTrianglesLength(width, y, n - 1);
    if x < n - 1 {
      RowTrianglesCell(width, y, n - 1, x);
      var prefix := RowTriangles(width, y, n - 1);
      assert RowTriangles(width, y, n)[6 * x .. 6 * x + 6] == prefix[6 * x .. 6 * x + 6];
    }
  }

  lemma SliceConcatLeft<T>(a: seq<T>, b: seq<T>, i: nat, j: nat)
    requires i <= j <= |a|
    ensures (a + b)[i .. j] == a[i .. j]
  {
  }

  lemma SliceConcatRight<T>(a: seq<T>, b: seq<T>, i: nat, j: nat)
    requires i <= j <= |b|
    ensures (a + b)[|a| + i .. |a| + j] == b[i .. j]
  {
  }

  lemma SliceOfSlice<T>(s: seq<T>, i: nat, j: nat, k: nat, l: nat)
    requires i <= j <= |s| && k <= l <= j - i
    ensures s[i .. j][k .. l] == s[i + k .. i + l]
  {
    var a, b := s[i .. j][k .. l], s[i + k .. i + l];
    assert |a| == |b|;
    forall n | 0 <= n < |a|
      ensures a[n] == b[n]
    {
      assert a[n] == s[i + k + n];
    }
  }

  /** The first r1 rows' list is a prefix of the first r2 rows' list. */
  lemma {:induction false} GridTrianglesPrefix(width: nat, r1: nat, r2: nat)
    requires r1 <= r2
    ensures |GridTriangles(width, r1)| <= |GridTriangles(width, r2)|
    ensures GridTriangles(width, r2)[..|GridTriangles(width, r1)|] == GridTriangles(width, r1)
  {
    if r1 < r2 {
      GridTrianglesPrefix(width, r1, r2 - 1);
      var prefix := GridTriangles(width, r2 - 1);
      SliceConcatLeft(prefix, RowTriangles(width, r2 - 1, Cells(width)), 0, |GridTriangles(width, r1)|);
    }
  }

  /** Cell x of row y, within the list of the first y + 1 rows. */
  lemma LastRowCell(width: nat, x: nat, y: nat)
    requires x < Cells(width)
    ensures |GridTriangles(width, y)| + 6 * x + 6 <= |GridTriangles(width, y + 1)|
    ensures GridTriangles(width, y + 1)[|GridTriangles(width, y)| + 6 * x .. |GridTriangles(width, y)| + 6 * x + 6]
         == CellTriangles(width, Slot(width, x, y))
  {
    var above := GridTriangles(width, y);
    var row := RowTriangles(width, y, Cells(width));
    assert GridTriangles(width, y + 1) == above + row;
    RowTrianglesCell(width, y, Cells(width), x);
    SliceConcatRight(above, row, 6 * x, 6 * x + 6);
  }

  /** A slice inside the first r1 rows' list reads the same in the first r2 rows' list. */
  lemma GridTrianglesSlice(width: nat, r1: nat, r2: nat, i: nat, j: nat)
    requires r1 <= r2 && i <= j <= |GridTriangles(width, r1)|
    ensures j <= |GridTriangles(width, r2)|
    ensures GridTriangles(width, r2)[i .. j] == GridTriangles(width, r1)[i .. j]
  {
    GridTrianglesPrefix(width, r1, r2);
    SliceOfSlice(GridTriangles(width, r2), 0, |GridTriangles(width, r1)|, i, j);
  }

  /** Exactly two triangles per cell, at a fixed place: cell (x, y) owns
      entries 6 * (y * (width-1) + x) .. +6, and they are its two triangles. */
  lemma GridTrianglesCell(width: nat, rows: nat, x: nat, y: nat)
    requires x < Cells(width) && y < rows
    ensures 6 * Slot(Cells(width), x, y) + 6 <= |GridTriangles(width, rows)|
    ensures GridTriangles(width, rows)[6 * Slot(Cells(width), x, y) .. 6 * Slot(Cells(width), x, y) + 6]
         == CellTriangles(width, Slot(width, x, y))
  {
    var start := 6 * Slot(Cells(width), x, y);
    GridTrianglesLength(width, y);
    assert start == |GridTriangles(width, y)| + 6 * x;
    LastRowCell(width, x, y);
    GridTrianglesSlice(width, y + 1, rows, start, start + 6);
  }

  /** Every index of cell (x, y)'s triangles names a vertex of the grid. */
  lemma CellTrianglesInRange(width: nat, height: nat, x: nat, y: nat)
    requires x < Cells(width) && y < Cells(height)
    ensures forall t :: t in CellTriangles(width, Slot(width, x, y)) ==> 0 <= t < width * height
  {
    SlotInRange(width, height, x + 1, y + 1);
    assert Slot(width, x + 1, y + 1) == Slot(width, x, y) + width + 1;
    SlotInRange(width, height, x, y);
  }

  /** All entries of `s` are vertex indices below `bound`. */
  predicate IndicesBelow(s: seq<int>, bound: int) {
    forall i :: 0 <= i < |s| ==> 0 <= s[i] < bound
  }

  lemma IndicesBelowConcat(a: seq<int>, b: seq<int>, bound: int)
    requires IndicesBelow(a, bound) && IndicesBelow(b, bound)
    ensures IndicesBelow(a + b, bound)
  {
    forall i | 0 <= i < |a + b|
      ensures 0 <= (a + b)[i] < bound
    {
      if i >= |a| {
        assert (a + b)[i] == b[i - |a|];
      }
    }
  }

  lemma {:induction false} RowTrianglesInRange(width: nat, height: nat, y: nat, n: nat)
    requires n <= Cells(width) && y < Cells(height)
    ensures IndicesBelow(RowTriangles(width, y, n), width * height)
  {
    if n > 0 {
      RowTrianglesInRange(width, height, y, n - 1);
      var cell := CellTriangles(width, Slot(width, n - 1, y));
      CellTrianglesInRange(width, height, n - 1, y);
      assert IndicesBelow(cell, width * height) by {
        forall i | 0 <= i < |cell| ensures 0 <= cell[i] < width * height {
          assert cell[i] in cell;
        }
      }
      IndicesBelowConcat(RowTriangles(width, y, n - 1), cell, width * height);
    }
  }

  /** Every triangle index of the reference tessellation lies in
      [0, width * height). */
  lemma {:induction false} GridTrianglesInRange(width: nat, height: nat, rows: nat)
    requires rows <= Cells(height)
    ensures IndicesBelow(GridTriangles(width, rows), width * height)
  {
    if rows > 0 {
      GridTrianglesInRange(width, height, rows - 1);
      RowTrianglesInRange(width, height, rows - 1, Cells(width));
      IndicesBelowConcat(GridTriangles(width, rows - 1), RowTriangles(width, rows - 1, Cells(width)), width * height);
    }
  }

  /** A cell's two triangles use exactly its four corners, and both contain the
      diagonal from the upper-left corner v to the lower-right corner v+w+1. */
  lemma CellTrianglesCorners(width: int, v: int)
    ensures var t := CellTriangles(width, v);
      && (set i | 0 <= i < 6 :: t[i]) == {v, v + 1, v + width, v + width + 1}
      && v in t[0..3] && v + width + 1 in t[0..3]
      && v in t[3..6] && v + width + 1 in t[3..6]
  {
    var t := CellTriangles(width, v);
    var s := set i | 0 <= i < 6 :: t[i];
    assert t[0] == v && t[5] == v + 1 && t[2] == v + width && t[1] == v + width + 1;
    assert s == {v, v + 1, v + width, v + width + 1};
    assert t[0..3] == [v, v + width + 1, v + width];
    assert t[3..6] == [v + width + 1, v, v + 1];
  }

  // ---------------------------------------------------------------------------
  // GenerateTerrainMeshData

  /** The vertex of grid point (x, y): centred on the origin in x/z, the
      height sample copied unchanged into y. */
  function GridVertex(width: nat, height: nat, x: nat, y: nat, sample: real): (v: Vector3)
    ensures v.y == sample
  {
    Vector3((width - 1) as real / -2.0 + x as real, sample, (height - 1) as real / 2.0 - y as real)
  }

  /** The UV of grid point (x, y): (x / width, y / height). */
  function GridUV(width: nat, height: nat, x: nat, y: nat): (r: Vector2)
    requires width > 0 && height > 0
    // Grid points map into the unit square: texture coordinates of a point
    // inside the grid lie in [0, 1).
    ensures x < width ==> 0.0 <= r.x < 1.0
    ensures y < height ==> 0.0 <= r.y < 1.0
  {
    Vector2(x as real / width as real, y as real / height as real)
  }

  function Min(a: int, b: int): int {
    if a < b then a else b
  }

  /** The triangles emitted before visiting point (x, y): all full rows above,
      then the cells of row y left of x. */
  function EmittedBefore(width: nat, height: nat, x: nat, y: nat): seq<int> {
    GridTriangles(width, y) + (if y < Cells(height) then RowTriangles(width, y, Min(x, Cells(width))) else [])
  }

  /** Visiting point (x, y) emits its cell's triangles exactly when the point
      has a right and a lower neighbour. */
  lemma EmittedStep(width: nat, height: nat, x: nat, y: nat)
    requires x < width && y < height
    ensures x < width - 1 && y < height - 1 ==>
      EmittedBefore(width, height, x + 1, y) == EmittedBefore(width, height, x, y) + CellTriangles(width, Slot(width, x, y))
    ensures !(x < width - 1 && y < height - 1) ==>
      EmittedBefore(width, height, x + 1, y) == EmittedBefore(width, height, x, y)
  {
    if x < width - 1 && y < height - 1 {
      assert Min(x + 1, Cells(width)) == x + 1 && Min(x, Cells(width)) == x;
    }
  }

  /** Emission at the start and at the end of row y, in terms of full rows. */
  lemma EmittedRow(width: nat, height: nat, y: nat)
    requires y < height
    ensures EmittedBefore(width, height, 0, y) == GridTriangles(width, Min(y, Cells(height)))
    ensures EmittedBefore(width, height, width, y) == GridTriangles(width, Min(y + 1, Cells(height)))
  {
    assert Min(y, Cells(height)) == y;
    if y < Cells(height) {
      assert Min(width, Cells(width)) == Cells(width);
      assert GridTriangles(width, y + 1) == GridTriangles(width, y) + RowTriangles(width, y, Cells(width));
    }
  }

  /** The cursor never runs past the triangle buffer: cell (x, y)'s six
      entries fit into (width - 1) * (height - 1) * 6 slots. */
  lemma CellFitsBuffer(width: nat, height: nat, x: nat, y: nat)
    requires x < width - 1 && y < height - 1
    ensures |EmittedBefore(width, height, x, y)| + 6 <= (width - 1) * (height - 1) * 6
  {
    var cw, ch := width - 1, height - 1;
    assert Cells(width) == cw && Cells(height) == ch;
    GridTrianglesLength(width, y);
    RowTrianglesLength(width, y, x);
    SlotInRange(cw, ch, x, y);
    assert |EmittedBefore(width, height, x, y)| == 6 * Slot(cw, x, y);
    assert Slot(cw, x, y) + 1 <= ch * cw;
    assert ch * cw == cw * ch;
  }

  /** The vertex and UV buffers hold the right value for every point of the
      first `y` rows and the first `x` points of row `y`, and every slot from
      the write cursor `Slot(width, x, y)` on still holds the zero value the
      constructor left there: slots are filled strictly in order. */
  ghost predicate VerticesWritten(m: MeshData, heightMap: array2<real>, x: nat, y: nat)
    reads heightMap
    requires heightMap.Length0 > 0 && heightMap.Length1 > 0
  {
    var width, height := heightMap.Length0, heightMap.Length1;
    && |m.vertices| == |m.uvMaps| == width * height
    && (forall yy, xx :: 0 <= yy < height && 0 <= xx < width && (yy < y || (yy == y && xx < x)) ==>
          0 <= Slot(width, xx, yy) < width * height
          && m.vertices[Slot(width, xx, yy)] == GridVertex(width, height, xx, yy, heightMap[xx, yy])
          && m.uvMaps[Slot(width, xx, yy)] == GridUV(width, height, xx, yy))
    && (forall k :: Slot(width, x, y) <= k < width * height ==>
          m.vertices[k] == ZeroVector3 && m.uvMaps[k] == ZeroVector2)
  }

  /** Writing point (x, y) extends the written region by that point. */
  lemma WriteVertex(m: MeshData, heightMap: array2<real>, x: nat, y: nat)
    requires heightMap.Length0 > 0 && heightMap.Length1 > 0
    requires x < heightMap.Length0 && y < heightMap.Length1
    requires VerticesWritten(m, heightMap, x, y)
    ensures 0 <= Slot(heightMap.Length0, x, y) < |m.vertices|
    ensures var width, height := heightMap.Length0, heightMap.Length1;
      var v := Slot(width, x, y);
      VerticesWritten(m.(vertices := m.vertices[v := GridVertex(width, height, x, y, heightMap[x, y])],
                         uvMaps := m.uvMaps[v := GridUV(width, height, x, y)]), heightMap, x + 1, y)
  {
    var width, height := heightMap.Length0, heightMap.Length1;
    SlotInRange(width, height, x, y);
    forall yy, xx | 0 <= yy < height && 0 <= xx < width && (yy < y || (yy == y && xx < x))
      ensures Slot(width, xx, yy) < Slot(width, x, y)
    {
      SlotOrder(width, xx, yy, x, y);
    }
  }

  /** The buffers are consistent with having visited every grid point before
      (x, y) in row-major order. */
  ghost predicate VisitedBefore(m: MeshData, heightMap: array2<real>, x: nat, y: nat)
    reads heightMap
    requires heightMap.Length0 > 0 && heightMap.Length1 > 0
  {
    var width, height := heightMap.Length0, heightMap.Length1;
    && |m.triangles| == (width - 1) * (height - 1) * 6
    && 0 <= m.triangleIndex <= |m.triangles|
    && m.triangles[..m.triangleIndex] == EmittedBefore(width, height, x, y)
    && VerticesWritten(m, heightMap, x, y)
  }

  /** The two `AddTriangle` calls for the cell whose upper-left point is slot
      `v`: with room for six entries both succeed, and the written prefix grows
      by the cell's two triangles. */
  function AddCellTriangles(m: MeshData, width: int, v: int): (r: MeshData)
    requires 0 <= m.triangleIndex && m.triangleIndex + 6 <= |m.triangles|
    ensures |r.triangles| == |m.triangles| && r.triangleIndex == m.triangleIndex + 6
    ensures r.triangles[..r.triangleIndex] == m.triangles[..m.triangleIndex] + CellTriangles(width, v)
    ensures r.vertices == m.vertices && r.uvMaps == m.uvMaps
  {
    var m1 := AddTriangle(m, v, v + width + 1, v + width).value;
    AddTriangle(m1, v + width + 1, v, v + 1).value
  }

  /** The `if` of the inner loop body: the cell's two triangles are added when
      (x, y) has a right and a lower neighbour. */
  function EmitCell(width: nat, height: nat, m: MeshData, x: nat, y: nat): (r: MeshData)
    requires x < width && y < height
    requires |m.triangles| == (width - 1) * (height - 1) * 6
    requires 0 <= m.triangleIndex <= |m.triangles|
    requires m.triangles[..m.triangleIndex] == EmittedBefore(width, height, x, y)
    ensures |r.triangles| == |m.triangles|
    ensures 0 <= r.triangleIndex <= |r.triangles|
    ensures r.triangles[..r.triangleIndex] == EmittedBefore(width, height, x + 1, y)
    ensures r.vertices == m.vertices && r.uvMaps == m.uvMaps
  {
    EmittedStep(width, height, x, y);
    if x < width - 1 && y < height - 1 then
      CellFitsBuffer(width, height, x, y);
      AddCellTriangles(m, width, Slot(width, x, y))
    else m
  }

  /** The two stores of the inner loop body: vertex and UV of (x, y) at its slot. */
  function PlaceVertex(heightMap: array2<real>, m: MeshData, x: nat, y: nat): (r: MeshData)
    reads heightMap
    requires 0 <= x < heightMap.Length0 && 0 <= y < heightMap.Length1
    requires VerticesWritten(m, heightMap, x, y)
    ensures VerticesWritten(r, heightMap, x + 1, y)
    ensures r.triangles == m.triangles && r.triangleIndex == m.triangleIndex
  {
    var width, height := heightMap.Length0, heightMap.Length1;
    var v := Slot(width, x, y);
    WriteVertex(m, heightMap, x, y);
    m.(vertices := m.vertices[v := GridVertex(width, height, x, y, heightMap[x, y])],
       uvMaps := m.uvMaps[v := GridUV(width, height, x, y)])
  }

  /** One pass of the inner loop body at point (x, y). */
  function VisitPoint(heightMap: array2<real>, m: MeshData, x: nat, y: nat): (r: MeshData)
    reads heightMap
    requires 0 <= x < heightMap.Length0 && 0 <= y < heightMap.Length1
    requires VisitedBefore(m, heightMap, x, y)
    ensures VisitedBefore(r, heightMap, x + 1, y)
  {
    PlaceVertex(heightMap, EmitCell(heightMap.Length0, heightMap.Length1, m, x, y), x, y)
  }

  /** The inner `x` loop for one row `y`. The source's `vertexIndex` cursor
      is `Slot(width, x, y)` throughout, so it is not kept separately. */
  method TessellateRow(heightMap: array2<real>, m0: MeshData, y: nat) returns (m: MeshData)
    requires heightMap.Length0 > 0 && 0 <= y < heightMap.Length1
    requires VisitedBefore(m0, heightMap, 0, y)
    ensures VisitedBefore(m, heightMap, heightMap.Length0, y)
    ensures VerticesWritten(m, heightMap, 0, y + 1)
  {
    var width := heightMap.Length0;
    m := m0;
    var x := 0;
    while x < width
      invariant 0 <= x <= width
      invariant VisitedBefore(m, heightMap, x, y)
    {
      m := VisitPoint(heightMap, m, x, y);
      x := x + 1;
    }
    NextRowSlot(width, y);
  }

  /** The outer `y` loop over a non-empty grid. */
  method TessellateGrid(heightMap: array2<real>, m0: MeshData) returns (m: MeshData)
    requires heightMap.Length0 > 0 && heightMap.Length1 > 0
    requires VisitedBefore(m0, heightMap, 0, 0)
    ensures var width, height := heightMap.Length0, heightMap.Length1;
      && |m.triangles| == (width - 1) * (height - 1) * 6
      && 0 <= m.triangleIndex <= |m.triangles|
      && m.triangles[..m.triangleIndex] == GridTriangles(width, Cells(height))
      && VerticesWritten(m, heightMap, 0, height)
  {
    var width := heightMap.Length0;
    var height := heightMap.Length1;
    m := m0;
    var y := 0;
    while y < height
      invariant 0 <= y <= height
      invariant |m.triangles| == (width - 1) * (height - 1) * 6
      invariant 0 <= m.triangleIndex <= |m.triangles|
      invariant m.triangles[..m.triangleIndex] == GridTriangles(width, Min(y, Cells(height)))
      invariant VerticesWritten(m, heightMap, 0, y)
    {
      EmittedRow(width, height, y);
      m := TessellateRow(heightMap, m, y);
      y := y + 1;
    }
  }

  /** Which grid sizes make the `MeshData` constructor throw: exactly those
      where one side is empty and the other has at least two points. */
  lemma NegativeBufferSize(width: nat, height: nat)
    ensures (width - 1) * (height - 1) * 6 < 0 <==> (width == 0 && height >= 2) || (height == 0 && width >= 2)
  {
    if width == 0 {
      assert (width - 1) * (height - 1) == 1 - height;
    } else if height == 0 {
      assert (width - 1) * (height - 1) == 1 - width;
    } else {
      MulLeftMonotone(0, width - 1, height - 1);
    }
  }

  /** When every row has been visited the triangle buffer is full, and every
      index in it names a vertex. */
  lemma TessellationComplete(width: nat, height: nat, m: MeshData)
    requires width > 0 && height > 0
    requires |m.triangles| == (width - 1) * (height - 1) * 6
    requires 0 <= m.triangleIndex <= |m.triangles|
    requires m.triangles[..m.triangleIndex] == GridTriangles(width, Cells(height))
    ensures m.triangleIndex == |m.triangles|
    ensures IndicesBelow(m.triangles[..m.triangleIndex], width * height)
  {
    GridTrianglesLength(width, Cells(height));
    GridTrianglesInRange(width, height, Cells(height));
    assert Cells(height) * Cells(width) == (width - 1) * (height - 1);
  }

  /** `MeshGenerator.GenerateTerrainMeshData(heightMap)`, where
      `heightMap.GetLength(0)` is the width (x) and `GetLength(1)` the height. */
  method GenerateTerrainMeshData(heightMap: array2<real>) returns (r: Option<MeshData>)
    ensures var w, h := heightMap.Length0, heightMap.Length1;
      r.None? <==> (w == 0 && h >= 2) || (h == 0 && w >= 2)
    ensures var w, h := heightMap.Length0, heightMap.Length1;
      r.Some? ==>
        var m := r.value;
        && |m.vertices| == w * h
        && |m.uvMaps| == w * h
        && |m.triangles| == (w - 1) * (h - 1) * 6
        && 0 <= m.triangleIndex <= |m.triangles|
        && m.triangles[..m.triangleIndex] == GridTriangles(w, Cells(h))
        && (m.triangleIndex == |m.triangles| <==> w > 0 || h > 0)
        && (forall x, y :: 0 <= x < w && 0 <= y < h ==>
              0 <= Slot(w, x, y) < w * h
              && m.vertices[Slot(w, x, y)] == GridVertex(w, h, x, y, heightMap[x, y])
              && m.uvMaps[Slot(w, x, y)] == GridUV(w, h, x, y))
        && IndicesBelow(m.triangles[..m.triangleIndex], w * h)
        // Entries past the cursor (only a 0 x 0 map leaves any) keep the constructor's zero.
        && (forall i :: m.triangleIndex <= i < |m.triangles| ==> m.triangles[i] == 0)
  {
    var width := heightMap.Length0;
    var height := heightMap.Length1;
    NegativeBufferSize(width, height);
    r := NewMeshData(width, height);
    if r.None? || width == 0 || height == 0 {
      // Either the constructor threw, or there are no grid points and the
      // loops do nothing.
      return;
    }
    var m;
    m := TessellateGrid(heightMap, r.value);
    TessellationComplete(width, height, m);
    r := Some(m);
  }

}

=== FILE: regions.dfy ===
/** The colour-map loop of `MapGenerator.GenerateMap`: every cell of the
    normalised noise map takes the colour of the first region (in table
    order) whose height threshold is at or above the cell's height; a cell
    no region covers keeps the default colour of a fresh C# `Color[]`. */
module RegionMap {
  import opened Wrappers
  import opened GridIndex

  datatype Color = Color(r: real, g: real, b: real, a: real)

  /** `default(Color)`: what an unwritten slot of `new Color[n]` holds. */
  const DefaultColor := Color(0.0, 0.0, 0.0, 0.0)

  /** One entry of `MapGenerator.regions`. */
  datatype TerrainType = TerrainType(name: string, height: real, color: Color)

  /** The region table is in order of non-decreasing height, as the comment on
      `MapGenerator.regions` asks. */
  predicate Ascending(regions: seq<TerrainType>) {
    forall i, j :: 0 <= i < j < |regions| ==> regions[i].height <= regions[j].height
  }

  /** The first region from index `i` on whose threshold is at or above `h`. */
  function FirstRegionFrom(regions: seq<TerrainType>, h: real, i: nat): (r: Option<nat>)
    requires i <= |regions|
    decreases |regions| - i
    ensures r.Some? ==>
      && i <= r.value < |regions|
      && h <= regions[r.value].height
      && (forall j :: i <= j < r.value ==> h > regions[j].height)
    ensures r.None? ==> forall j :: i <= j < |regions| ==> h > regions[j].height
  {
    if i == |regions| then None
    else if h <= regions[i].height then Some(i)
    else FirstRegionFrom(regions, h, i + 1)
  }

  /** The region index the inner `for (i ...)` loop settles on for height `h`:
      the lowest index whose threshold is >= h, or `None` when every
      threshold is below h. */
  function RegionIndex(regions: seq<TerrainType>, h: real): (r: Option<nat>)
    ensures r.Some? ==>
      && r.value < |regions|
      && h <= regions[r.value].height
      && (forall j :: 0 <= j < r.value ==> h > regions[j].height)
    ensures r.None? <==> forall j :: 0 <= j < |regions| ==> h > regions[j].height
  {
    FirstRegionFrom(regions, h, 0)
  }

  /** The colour the loop leaves in a cell of height `h`. */
  function CellColor(regions: seq<TerrainType>, h: real): (c: Color)
    ensures (forall j :: 0 <= j < |regions| ==> h > regions[j].height) ==> c == DefaultColor
    ensures forall i ::
      (0 <= i < |regions| && h <= regions[i].height && (forall j :: 0 <= j < i ==> h > regions[j].height))
      ==> c == regions[i].color
  {
    match RegionIndex(regions, h)
    case Some(i) => regions[i].color
    case None => DefaultColor
  }

  /** Orders region results: `None` (no region) ranks after every index. */
  function Rank(r: Option<nat>, n: nat): nat {
    match r
    case Some(i) => i
    case None => n
  }

  /** A higher cell never gets a lower region, whatever the table's order. */
  lemma RegionIndexMonotone(regions: seq<TerrainType>, h1: real, h2: real)
    requires h1 <= h2
    ensures Rank(RegionIndex(regions, h1), |regions|) <= Rank(RegionIndex(regions, h2), |regions|)
  {
    var r1, r2 := RegionIndex(regions, h1), RegionIndex(regions, h2);
    if r2.Some? {
      assert h1 <= regions[r2.value].height;
    }
  }

  /** With an ascending table the regions are height bands: a cell falls into
      region i exactly when its height lies in (regions[i-1].height,
      regions[i].height]. */
  lemma {:induction false} RegionIndexBand(regions: seq<TerrainType>, h: real, i: nat)
    requires Ascending(regions)
    requires i < |regions|
    ensures RegionIndex(regions, h) == Some(i) <==>
      (i == 0 || regions[i - 1].height < h) && h <= regions[i].height
  {
    var r := RegionIndex(regions, h);
    if (i == 0 || regions[i - 1].height < h) && h <= regions[i].height {
      forall j | 0 <= j < i
        ensures h > regions[j].height
      {
        assert regions[j].height <= regions[i - 1].height;
      }
    }
  }

  /** The worked example: thresholds 0.3, 0.6 and 1.0 send heights 0.1, 0.5 and
      0.9 to regions 0, 1 and 2. */
  lemma ThreeBandExample(water: Color, land: Color, mountain: Color)
    ensures var regions := [TerrainType("water", 0.3, water), TerrainType("land", 0.6, land),
                            TerrainType("mountain", 1.0, mountain)];
      && RegionIndex(regions, 0.1) == Some(0)
      && RegionIndex(regions, 0.5) == Some(1)
      && RegionIndex(regions, 0.9) == Some(2)
      && CellColor(regions, 0.5) == land
  {
    var regions := [TerrainType("water", 0.3, water), TerrainType("land", 0.6, land),
                    TerrainType("mountain", 1.0, mountain)];
    assert FirstRegionFrom(regions, 0.5, 1) == Some(1);
    assert FirstRegionFrom(regions, 0.9, 2) == Some(2);
    assert FirstRegionFrom(regions, 0.9, 1) == Some(2);
  }

  // ---------------------------------------------------------------------------
  // The loop itself

  /** The inner `for (i ...)` loop with its `break`: whether some region
      matched, and the colour it would write. */
  method ClassifyCell(regions: seq<TerrainType>, currentHeight: real) returns (matched: bool, color: Color)
    ensures matched <==> RegionIndex(regions, currentHeight).Some?
    ensures matched ==> color == regions[RegionIndex(regions, currentHeight).value].color
  {
    matched, color := false, DefaultColor;
    var i := 0;
    while i < |regions|
      invariant 0 <= i <= |regions|
      invariant forall j :: 0 <= j < i ==> currentHeight > regions[j].height
    {
      if currentHeight <= regions[i].height {
        matched, color := true, regions[i].color;
        assert RegionIndex(regions, currentHeight) == Some(i);
        return;
      }
      i := i + 1;
    }
  }

  /** The slots of `colorMap` already holding the colour of their cell:
      all rows above `y` and the first `x` cells of row `y`. */
  ghost predicate ColoredBefore(colorMap: seq<Color>, noiseMap: array2<real>, regions: seq<TerrainType>, x: nat, y: nat)
    reads noiseMap
  {
    var width, height := noiseMap.Length0, noiseMap.Length1;
    && |colorMap| == width * height
    && (forall yy, xx :: 0 <= yy < height && 0 <= xx < width && (yy < y || (yy == y && xx < x)) ==>
          0 <= Slot(width, xx, yy) < width * height
          && colorMap[Slot(width, xx, yy)] == CellColor(regions, noiseMap[xx, yy]))
  }

  /** Every slot from (x, y) on in row-major order still holds the default colour. */
  ghost predicate DefaultFrom(colorMap: seq<Color>, width: nat, height: nat, x: nat, y: nat) {
    forall yy, xx :: 0 <= yy < height && 0 <= xx < width && (yy > y || (yy == y && xx >= x)) ==>
      0 <= Slot(width, xx, yy) < |colorMap| && colorMap[Slot(width, xx, yy)] == DefaultColor
  }

  /** Storing at the slot of cell (x, y) keeps the cells before it. */
  lemma ColoredStep(colorMap: seq<Color>, noiseMap: array2<real>, regions: seq<TerrainType>, x: nat, y: nat)
    requires x < noiseMap.Length0 && y < noiseMap.Length1
    requires ColoredBefore(colorMap, noiseMap, regions, x, y)
    ensures 0 <= Slot(noiseMap.Length0, x, y) < |colorMap|
    ensures ColoredBefore(colorMap[Slot(noiseMap.Length0, x, y) := CellColor(regions, noiseMap[x, y])],
                          noiseMap, regions, x + 1, y)
  {
    var width, height := noiseMap.Length0, noiseMap.Length1;
    var k := Slot(width, x, y);
    SlotInRange(width, height, x, y);
    var next := colorMap[k := CellColor(regions, noiseMap[x, y])];
    forall yy, xx | 0 <= yy < height && 0 <= xx < width && (yy < y || (yy == y && xx < x + 1))
      ensures 0 <= Slot(width, xx, yy) < width * height
      ensures next[Slot(width, xx, yy)] == CellColor(regions, noiseMap[xx, yy])
    {
      SlotInRange(width, height, xx, yy);
      if yy < y || xx < x {
        SlotOrder(width, xx, yy, x, y);
        assert next[Slot(width, xx, yy)] == colorMap[Slot(width, xx, yy)];
      }
    }
  }

  /** Storing at the slot of cell (x, y) keeps the later slots at the default,
      and that slot held the default before. */
  lemma DefaultStep(colorMap: seq<Color>, width: nat, height: nat, x: nat, y: nat, c: Color)
    requires x < width && y < height
    requires DefaultFrom(colorMap, width, height, x, y)
    ensures 0 <= Slot(width, x, y) < |colorMap| && colorMap[Slot(width, x, y)] == DefaultColor
    ensures DefaultFrom(colorMap[Slot(width, x, y) := c], width, height, x + 1, y)
  {
    var k := Slot(width, x, y);
    forall yy, xx | 0 <= yy < height && 0 <= xx < width && (yy > y || (yy == y && xx > x))
      ensures k < Slot(width, xx, yy)
    {
      SlotOrder(width, x, y, xx, yy);
    }
  }

  /** One cell: classify it and write its slot only when a region matched. */
  method ColorCell(noiseMap: array2<real>, regions: seq<TerrainType>, colorMap: seq<Color>, x: nat, y: nat)
    returns (result: seq<Color>)
    requires x < noiseMap.Length0 && y < noiseMap.Length1
    requires ColoredBefore(colorMap, noiseMap, regions, x, y)
    requires DefaultFrom(colorMap, noiseMap.Length0, noiseMap.Length1, x, y)
    ensures ColoredBefore(result, noiseMap, regions, x + 1, y)
    ensures DefaultFrom(result, noiseMap.Length0, noiseMap.Length1, x + 1, y)
  {
    var k := Slot(noiseMap.Length0, x, y);
    ColoredStep(colorMap, noiseMap, regions, x, y);
    DefaultStep(colorMap, noiseMap.Length0, noiseMap.Length1, x, y, CellColor(regions, noiseMap[x, y]));
    var matched, color := ClassifyCell(regions, noiseMap[x, y]);
    result := colorMap;
    if matched {
      result := result[k := color];
    }
    assert result == colorMap[k := CellColor(regions, noiseMap[x, y])];
  }

  /** The inner `x` loop for row `y`. */
  method ColorRow(noiseMap: array2<real>, regions: seq<TerrainType>, colorMap: seq<Color>, y: nat)
    returns (result: seq<Color>)
    requires y < noiseMap.Length1
    requires ColoredBefore(colorMap, noiseMap, regions, 0, y)
    requires DefaultFrom(colorMap, noiseMap.Length0, noiseMap.Length1, 0, y)
    ensures ColoredBefore(result, noiseMap, regions, 0, y + 1)
    ensures DefaultFrom(result, noiseMap.Length0, noiseMap.Length1, 0, y + 1)
  {
    var mapWidth, mapHeight := noiseMap.Length0, noiseMap.Length1;
    result := colorMap;
    var x := 0;
    while x < mapWidth
      invariant 0 <= x <= mapWidth
      invariant ColoredBefore(result, noiseMap, regions, x, y)
      invariant DefaultFrom(result, mapWidth, mapHeight, x, y)
    {
      result := ColorCell(noiseMap, regions, result, x, y);
      x := x + 1;
    }
  }

  /** The nested `y`/`x` loops of `GenerateMap`. `mapWidth` and `mapHeight`
      are the noise map's dimensions, which is how `Noise.GenerateNoiseMap`
      allocates it. The colour map has mapWidth * mapHeight entries and every
      slot y * mapWidth + x ends up holding the colour of cell (x, y). */
  method GenerateColorMap(noiseMap: array2<real>, regions: seq<TerrainType>) returns (colorMap: seq<Color>)
    ensures |colorMap| == noiseMap.Length0 * noiseMap.Length1
    ensures forall x, y :: 0 <= x < noiseMap.Length0 && 0 <= y < noiseMap.Length1 ==>
      0 <= Slot(noiseMap.Length0, x, y) < |colorMap|
      && colorMap[Slot(noiseMap.Length0, x, y)] == CellColor(regions, noiseMap[x, y])
  {
    var mapWidth, mapHeight := noiseMap.Length0, noiseMap.Length1;
    colorMap := seq(mapWidth * mapHeight, _ => DefaultColor);
    forall yy, xx | 0 <= yy < mapHeight && 0 <= xx < mapWidth
      ensures 0 <= Slot(mapWidth, xx, yy) < |colorMap|
    {
      SlotInRange(mapWidth, mapHeight, xx, yy);
    }
    var y := 0;
    while y < mapHeight
      invariant 0 <= y <= mapHeight
      invariant ColoredBefore(colorMap, noiseMap, regions, 0, y)
      invariant DefaultFrom(colorMap, mapWidth, mapHeight, 0, y)
    {
      colorMap := ColorRow(noiseMap, regions, colorMap, y);
      y := y + 1;
    }
  }

}

=== FILE: validation.dfy ===
/** The inspector validators: `MapGenerator.OnValidate` and
    `NoiseData.OnValidate`. Both repair out-of-range noise parameters by
    clamping and leave every other field alone. Floats are modelled as reals,
    so NaN is not represented. */
module Validation {
  import opened Vectors

  /** Unity's `Mathf.Clamp(value, min, max)`: the lower bound is tested first. */
  function Clamp(value: real, lo: real, hi: real): (r: real)
    requires lo <= hi
    ensures lo <= r <= hi
    ensures lo <= value <= hi ==> r == value
    ensures value < lo ==> r == lo
    ensures hi < value ==> r == hi
  {
    if value < lo then lo else if value > hi then hi else value
  }

  /** `if (v < floor) v = floor;` on a float field. */
  function RaiseTo(value: real, floor: real): (r: real)
    ensures r >= floor
    ensures value >= floor ==> r == value
    ensures value < floor ==> r == floor
  {
    if value < floor then floor else value
  }

  /** `if (v < floor) v = floor;` on an int field. */
  function RaiseIntTo(value: int, floor: int): (r: int)
    ensures r >= floor
    ensures value >= floor ==> r == value
    ensures value < floor ==> r == floor
  {
    if value < floor then floor else value
  }

  // ---------------------------------------------------------------------------
  // MapGenerator

  datatype DrawMode = NoiseMap | ColorMap

  /** The serialized fields of `MapGenerator` (the region table is in RegionMap). */
  datatype MapSettings = MapSettings(
    drawMode: DrawMode,
    seed: int,
    mapWidth: int,
    mapHeight: int,
    scale: real,
    lacunarity: real,
    persistence: real,
    octaves: int,
    offset: Vector2,
    autoUpdate: bool)

  /** The ranges `MapGenerator.OnValidate` establishes. */
  predicate MapSettingsValid(s: MapSettings) {
    && s.mapWidth >= 1
    && s.mapHeight >= 1
    && s.lacunarity >= 1.0
    && 0.0 <= s.persistence <= 1.0
    && s.octaves >= 1
  }

  /** `MapGenerator.OnValidate`: width, height, lacunarity and octaves are raised
      to 1, persistence is clamped into [0, 1]; nothing else is touched. */
  function ValidateMapSettings(s: MapSettings): (r: MapSettings)
    ensures MapSettingsValid(r)
    ensures r.mapWidth == (if s.mapWidth < 1 then 1 else s.mapWidth)
    ensures r.mapHeight == (if s.mapHeight < 1 then 1 else s.mapHeight)
    ensures r.lacunarity == (if s.lacunarity < 1.0 then 1.0 else s.lacunarity)
    ensures r.octaves == (if s.octaves < 1 then 1 else s.octaves)
    ensures 0.0 <= s.persistence <= 1.0 ==> r.persistence == s.persistence
    ensures s.persistence < 0.0 ==> r.persistence == 0.0
    ensures s.persistence > 1.0 ==> r.persistence == 1.0
    ensures r.seed == s.seed && r.scale == s.scale && r.offset == s.offset
    ensures r.drawMode == s.drawMode && r.autoUpdate == s.autoUpdate
  {
    s.(mapWidth := RaiseIntTo(s.mapWidth, 1),
       mapHeight := RaiseIntTo(s.mapHeight, 1),
       lacunarity := RaiseTo(s.lacunarity, 1.0),
       persistence := Clamp(s.persistence, 0.0, 1.0),
       octaves := RaiseIntTo(s.octaves, 1))
  }

  /** Valid settings are a fixed point of the validator. */
  lemma ValidMapSettingsUnchanged(s: MapSettings)
    requires MapSettingsValid(s)
    ensures ValidateMapSettings(s) == s
  {
  }

  /** The validator changes settings exactly when they are out of range. */
  lemma ValidateMapSettingsChangesIffInvalid(s: MapSettings)
    ensures ValidateMapSettings(s) == s <==> MapSettingsValid(s)
  {
  }

  /** Running the validator twice gives what running it once gives. */
  lemma ValidateMapSettingsIdempotent(s: MapSettings)
    ensures ValidateMapSettings(ValidateMapSettings(s)) == ValidateMapSettings(s)
  {
    ValidMapSettingsUnchanged(ValidateMapSettings(s));
  }

  // ---------------------------------------------------------------------------
  // NoiseData

  datatype NormalizeMode = Local | Global

  /** The serialized fields of the `NoiseData` asset. */
  datatype NoiseSettings = NoiseSettings(
    normalizeMode: NormalizeMode,
    seed: int,
    scale: real,
    lacunarity: real,
    persistence: real,
    octaves: int,
    offset: Vector2)

  /** The ranges `NoiseData.OnValidate` establishes; `scale` is not among them. */
  predicate NoiseSettingsValid(s: NoiseSettings) {
    && s.lacunarity >= 1.0
    && 0.0 <= s.persistence <= 1.0
    && s.octaves >= 1
  }

  /** `NoiseData.OnValidate`: lacunarity and octaves raised to 1, persistence
      clamped into [0, 1]; seed, scale (even when it is not positive), offset
      and the normalisation mode are left as they are. */
  function ValidateNoiseSettings(s: NoiseSettings): (r: NoiseSettings)
    ensures NoiseSettingsValid(r)
    ensures r.lacunarity == (if s.lacunarity < 1.0 then 1.0 else s.lacunarity)
    ensures r.octaves == (if s.octaves < 1 then 1 else s.octaves)
    ensures 0.0 <= s.persistence <= 1.0 ==> r.persistence == s.persistence
    ensures s.persistence < 0.0 ==> r.persistence == 0.0
    ensures s.persistence > 1.0 ==> r.persistence == 1.0
    ensures r.seed == s.seed && r.scale == s.scale && r.offset == s.offset
    ensures r.normalizeMode == s.normalizeMode
  {
    s.(lacunarity := RaiseTo(s.lacunarity, 1.0),
       persistence := Clamp(s.persistence, 0.0, 1.0),
       octaves := RaiseIntTo(s.octaves, 1))
  }

  /** Valid noise settings are a fixed point, and only they are. */
  lemma ValidateNoiseSettingsChangesIffInvalid(s: NoiseSettings)
    ensures ValidateNoiseSettings(s) == s <==> NoiseSettingsValid(s)
  {
  }

  /** Running the noise validator twice gives what running it once gives. */
  lemma ValidateNoiseSettingsIdempotent(s: NoiseSettings)
    ensures ValidateNoiseSettings(ValidateNoiseSettings(s)) == ValidateNoiseSettings(s)
  {
    ValidateNoiseSettingsChangesIffInvalid(ValidateNoiseSettings(s));
  }

  /** A non-positive scale survives validation: the `scale <= 0` repair
      happens later, inside the noise generator. */
  lemma NonPositiveScaleSurvives(s: NoiseSettings)
    requires s.scale <= 0.0
    ensures ValidateNoiseSettings(s).scale == s.scale <= 0.0
  {
  }

}

=== FILE: vectors.dfy ===
/** Unity's float vectors, with floats modelled as reals. */
module Vectors {

  datatype Vector2 = Vector2(x: real, y: real)
  datatype Vector3 = Vector3(x: real, y: real, z: real)

  /** The value a fresh C# `Vector2[]` / `Vector3[]` slot holds. */
  const ZeroVector2 := Vector2(0.0, 0.0)
  const ZeroVector3 := Vector3(0.0, 0.0, 0.0)

}

=== FILE: wrappers.dfy ===
/** The Option type used wherever the C# code would throw (an out-of-range
    index, a negative array size) or a lookup can find nothing. */
module Wrappers {

  datatype Option<+T> = None | Some(value: T)

}
